=== FILE: README.md ===
# Video composition core, modelled in Dafny

This project models the media-composition core of a small Node.js service.

**What the service does.** It turns a prompt plus optional images and audio into short videos:
- It asks a language model for a narration script.
- It wraps that script and escapes it for ffmpeg's `drawtext`.
- It builds an ffmpeg filter graph: one slide per image, optional Ken Burns zoom, concatenation and a caption.
- It runs ffmpeg and pushes progress messages over a WebSocket to the session that asked.

**What the model covers.**
- The two text utilities.
- The two filter-graph builders: the worker's `renderJob` and the controller's inline graph.
- The timemark-to-percent formulas.
- The request parameters: presets and clamps.
- The per-video event sequence and result list of `generateVideos`.
- The job queue.
- The session-to-socket registry.

**Modules.** Each module below is one file:

- `Basics`: `Option`, `Max`, `Min`.
- `Strings`: the JavaScript string behaviour the code relies on. This covers `trim`, `split`/`join`, printing integers and `parseInt`, all as plain sequence functions.
- `Text`: `wrapText` and `sanitizeForDrawtext` (utils/text.js), each with an independent reference definition.
  - `wrapText` is related to the whitespace-normalised words of its input and to a greedy line-filling predicate.
  - `sanitizeForDrawtext` is related to a character-by-character escaper and its inverse.
- `Graph`: what both graph builders share.
  - Stream labels (`[0:v]`, `[v{i}]`, `[kb{i}]`, `[vconcat]`, `[vf]`, `[vout]`, `[vfinal]`) and their printing.
  - Filter statements as typed records (inputs, chain, output), printed by `ShowAll`.
  - The per-image stage.
  - The well-formedness predicates the graphs are proved to satisfy. Every label read is an input stream or produced earlier, and no label is produced twice.
- `Renderer`: `renderJob` of worker/renderer.js, the graph-building part.
- `Progress`: the percentage formula of both pipelines, and how the two readings of a timemark differ.
- `Params`: `sizeFromPreset` and the request-body reading with its clamps (controllers/videoController.js).
- `VideoGraph`: the controller's inline graph.
- `Generate`: the `generateVideos` loop.
  - The WebSocket client is looked up once, and `sendWs` drops messages when it is missing or not open.
  - Each video produces an event sequence.
  - One failed video does not stop the others.
- `JobQueue`: utils/queue.js as a state machine.
  - Each scheduled `setImmediate(workerLoop)` is a tick.
  - `await job.run()` becomes a start step and a later finish event.
- `Registry`: the `wsMap` hello/close handlers of server.js, and the routing rule.

**How JavaScript values are represented.**
- A JavaScript `NaN` from `parseInt` is `None`.
- `Math.max`/`Math.min` keep `NaN`, and so does `Clamp`.
- `Math.floor` of a quotient with a positive divisor is Dafny's `/`.
- `Math.round` of a quotient is `RoundDiv`, which rounds the exact quotient; `Math.floor` of `(D / N) * 25` is taken on the exact quotient too. Both can differ from the double-precision result by one (see Left out).
- Timemarks are sequences of fields in hundredths of a second.

**Behaviours of the code worth noting.**
- The sanitizer does not escape backslashes, so it is not idempotent (`Text.SanitizeNotIdempotent`).
- The controller reads the `fade` flag and never uses it (`VideoGraph.FadeIgnored`). It always appends the `drawtext` statement, even for an empty script.
- A failing script call in the controller fails that video. The video is not rendered with empty text, and no error message is sent.
- The controller looks up the session's connection once, when the request begins. It does not route each message to whichever connection is registered at that moment.
- The reported progress can go down. `generating_script` reports 2, and the first `rendering` report may be 0. A failed render reports 0 (`Generate.ProgressCanDrop`).
- A `close` removes the session's entry even when a newer connection has taken it over (`Registry.CloseDropsNewer`).
- With Ken Burns on, the zoom statements read the raw input `[i:v]`, so the fitted `[v{i}]` streams are never consumed (`Renderer.KenBurnsSkipsSlides`, `VideoGraph.KenBurnsSkipsSlides`).

## Model

| member | source | states |
|---|---|---|
| Text.JsWordsShape | utils/text.js:4 | the words after collapsing white space, trimming and splitting on a space are `[""]` exactly when the text has no non-space character; otherwise each is a non-empty word without white space, and together they hold exactly the text's non-space characters in order |
| Text.WrapLinesSpec | utils/text.js:5-15 | for a list of words the loop yields no line exactly when there are no words; reading the lines' words back gives the list unchanged; every line is non-empty, trimmed, made of plain spaces and no longer than the limit unless it is a single word; and each line after the first starts with a word that would not have fitted on the line before |
| Text.WrapLinesBlank | utils/text.js:7-15 | the single empty word of a blank text produces no line |
| Text.WrapTextSpec | utils/text.js:2-17 | null, undefined, empty and all-white-space text wrap to `""`; otherwise the result is the lines joined with backslash-`n`, the lines' words are the text's words in order, and every line is good and greedily filled |
| Text.WrapTextNoNewline | utils/text.js:4-16 | the wrapped text contains no newline character and no white space other than plain spaces, as lines are joined with the two characters backslash and `n` |
| Text.SanitizeIsEscapeSpecials | utils/text.js:19-26 | the five chained replacements equal escaping each of `:` `'` `[` `]` `"` individually with a backslash while keeping every other character |
| Text.EscapeSpecialsLength | utils/text.js:21-25 | the escaped text is longer than the input by the number of special characters in it |
| Text.UnescapeEscapeSpecials | utils/text.js:21-25 | removing the backslash before each special character recovers the input |
| Text.EscapeSpecialsGuarded | utils/text.js:21-25 | every special character in the escaped text has a backslash right before it |
| Text.SanitizeSpec | utils/text.js:19-26 | a null or undefined text sanitizes to `""`; for any text the result has length input plus special count, unescapes to the input, and has every special character preceded by a backslash |
| Text.SanitizeNotIdempotent | utils/text.js:19-26 | sanitizing `:` twice differs from sanitizing it once, since backslashes are not escaped |
| Strings.ParseIntRoundTrip | controllers/videoController.js:118 | `parseInt` of an integer's decimal text gives that integer back |
| Graph.StripLabel | controllers/videoController.js:233 | removing the brackets from a printed stream label leaves its name, which is never empty |
| Params.ParseSizeRoundTrip | worker/renderer.js:21 | splitting `WxH` on `x` and parsing both pieces gives back `W` and `H` |
| Params.SizeFromPresetSpec | controllers/videoController.js:18-26 | the custom size is used exactly when both custom values are non-zero numbers; otherwise `reel` and `short` give 1080x1920, `square` 1080x1080 and anything else 1920x1080; the size text always reads back as two numbers |
| Params.PresetTexts | controllers/videoController.js:21-24 | the preset sizes print as the literals `1080x1920`, `1080x1080` and `1920x1080` |
| Params.OrSpec | controllers/videoController.js:91-102 | `field \|\| default` keeps a truthy field, is truthy unless both the field and the default are empty, and applying the same default a second time changes nothing |
| Params.ClampSpec | controllers/videoController.js:93-94 | a clamp keeps NaN, keeps a value inside the bounds, and moves a value outside to the nearer bound |
| Params.ReadBodyBounds | controllers/videoController.js:91-102 | a parsed `total` lies in [1, 30] and a parsed `duration` in [4, 120]; `wordsTarget` is never 0; `kenburns` and `fade` are set exactly by `"true"` or `true` |
| Params.ReadBodyDefaults | controllers/videoController.js:93-97 | missing or falsy `total`, `duration` and `fontSize` read as 1, 8 and 40 |
| Params.ReadBodyNumbers | controllers/videoController.js:93-94 | a `total` t and a `duration` d given as decimal text read as `max(1, min(30, t))` and `max(4, min(120, d))` |
| Renderer.VideoInputs | worker/renderer.js:24-28 | there are `max(1, N)` video inputs for N images |
| Renderer.InputsSpec | worker/renderer.js:24-34 | the inputs are the video sources followed by one audio source at index N (1 with no images); with no images the one video input is a lavfi source; otherwise image i is input i with `-loop 1` |
| Renderer.SlideSecondsSpec | worker/renderer.js:46 | the trim length per slide is at least 2, and when above 2 it is the whole-second share `floor(D/N)` of the duration |
| Renderer.ZoomFramesSpec | worker/renderer.js:49 | the zoom frame count is at least 25, and when above 25 it is the exact `floor(25·D/N)`, which the double computation can undershoot by one |
| Renderer.FadeOutStartSpec | worker/renderer.js:65 | the fade-out start `duration - 0.8` is written so that it reads back as 10·D − 8 tenths for every integer duration D other than 1 |
| Renderer.FadeOutStartExamples | worker/renderer.js:65 | the fade-out starts at `7.2` for the default duration 8, at `-0.8` for 0, and at `0.19999999999999996` for 1, as JavaScript prints those doubles |
| Renderer.StageLength | worker/renderer.js:39-56 | the per-image stage has one statement with no images, otherwise one per image, or two with Ken Burns |
| Renderer.LabelsSpec | worker/renderer.js:37-56 | the label list has `max(1, N)` entries: `[v0]` with no images, else `[kb{i}]` with Ken Burns or `[v{i}]` without, in image order |
| Renderer.NoImages | worker/renderer.js:39-59 | with no images the graph has four statements: the colour source scaled and trimmed to the duration into `[v0]`, then `[v0]format=yuv420p[vconcat]`, and no concat anywhere |
| Renderer.ImageStatements | worker/renderer.js:43-55 | image i's fit-and-trim statement is at position i, or 2i with Ken Burns, and its zoom statement is right after it |
| Renderer.Tail | worker/renderer.js:58-82 | after the stage come exactly three statements: format for one label or a concat of all labels with `n` = label count into `[vconcat]`; `fade=t=in…fade=t=out` with the duration's fade-out start into `[vf]` exactly when `fade` is set, else format; drawtext of the overlay's Caption (the wrapped, escaped text of Renderer.OverlaySpec) into `[vout]` exactly when the trimmed overlay is non-empty, else `null` |
| Renderer.RenderWired | worker/renderer.js:36-82 | every label a statement reads is an input's video or the output of an earlier statement |
| Renderer.RenderSingle | worker/renderer.js:36-82 | no label is output by two statements |
| Renderer.KenBurnsSkipsSlides | worker/renderer.js:46-51 | with Ken Burns the fitted `[v{i}]` streams are read by no statement |
| Renderer.OutIsSink | worker/renderer.js:70-82 | the last statement outputs `[vout]` and nothing reads it |
| Renderer.MapsOut | worker/renderer.js:77-81 | the first map is `-map [vout]`; the second is `-map K:a` with K the index of the last input, which is the audio source |
| Renderer.OverlaySpec | worker/renderer.js:71-72 | the overlay text unescapes to the overlay wrapped at `max(20, floor(W/22))` and has no newline |
| Progress.RoundDivNearest | worker/renderer.js:104 | the model's rounding of an exact quotient a/b is the integer nearest to it, halves rounding up |
| Progress.WorkerPercentCapped | worker/renderer.js:95-106 | the worker's percentage is never above 98, and is a number for every positive duration |
| Progress.WorkerPercentNearest | worker/renderer.js:101-104 | below the cap the model's percentage is the exact elapsed share of the duration rounded to the nearest whole number |
| Progress.WorkerPercentMonotone | worker/renderer.js:101-104 | a later timemark never gives a smaller percentage |
| Progress.WorkerPercentStart | worker/renderer.js:98 | with no timemark the percentage is 0 |
| Progress.ElapsedAgree | controllers/videoController.js:285-291 | the controller's elapsed time is a number exactly when the fields it reads parse, and then it equals the worker's reading, which skips zero or unparsable fields |
| Progress.ControllerPercentSpec | controllers/videoController.js:285-292 | for a positive duration the controller's percentage is a number exactly when the timemark parses, equals the worker's, and is at most 98 |
| Progress.ControllerPercentNaN | controllers/videoController.js:292 | a NaN duration gives a NaN percentage |
| VideoGraph.JobSize | controllers/videoController.js:117-118 | the width and height the graph uses are the two numbers read back from the size text |
| VideoGraph.FadeIgnored | controllers/videoController.js:99 | the `fade` flag does not change the job the graph is built from (by construction: a job has no field for it) |
| VideoGraph.VideoInputs | controllers/videoController.js:169-178 | there are `max(1, N)` video inputs for N images |
| VideoGraph.InputsSpec | controllers/videoController.js:169-186 | the inputs are the video sources followed by one audio source at index N (1 with no images); with no images the video input is `color=size={size}:color=000000`; otherwise image i is input i with `-loop 1` |
| VideoGraph.FramesSpec | controllers/videoController.js:208-218 | the per-slide length is at least 2 and when above 2 is `floor(D/N)`; the zoom frame count is 25 times it, so at least 50; a NaN duration makes both NaN |
| VideoGraph.VideoStreamsSpec | controllers/videoController.js:196-228 | the stream list has `max(1, N)` entries: `[0:v]` with no images, else `[kb{i}]` with Ken Burns or `[v{i}]` without, in image order |
| VideoGraph.FinalLabelSpec | controllers/videoController.js:231-239 | the final label is the single stream when there is one, else `[vout]` |
| VideoGraph.StageLength | controllers/videoController.js:202-227 | one per-image statement per image, two with Ken Burns, none with no images |
| VideoGraph.NoImages | controllers/videoController.js:197-251 | with no images the graph is the single drawtext statement reading `[0:v]` into `[vfinal]` |
| VideoGraph.ImageStatements | controllers/videoController.js:202-227 | image i's fit-and-trim statement is at position i, or 2i with Ken Burns, and its zoom statement is right after it |
| VideoGraph.Tail | controllers/videoController.js:230-251 | after the stage comes a concat of all streams into `[vout]` only when there are several, then always the drawtext statement reading the final label into `[vfinal]`, drawing the escaped, wrapped script of VideoGraph.CaptionSpec in the found font at the requested size for the whole duration, whose y is `(h*0.12)` for top, `(h-text_h-64)` for bottom and `(h-text_h)/2` otherwise |
| VideoGraph.ControllerWired | controllers/videoController.js:195-251 | every label a statement reads is an input's video or the output of an earlier statement |
| VideoGraph.ControllerSingle | controllers/videoController.js:195-251 | no label is output by two statements |
| VideoGraph.ConcatExactlyOnce | controllers/videoController.js:232-239 | a concat statement appears exactly when there are two or more images, once, right after the stage, with `n` equal to the image count |
| VideoGraph.KenBurnsSkipsSlides | controllers/videoController.js:206-223 | with Ken Burns the fitted `[v{i}]` streams are read by no statement |
| VideoGraph.FinalIsSink | controllers/videoController.js:250-268 | the last statement outputs `[vfinal]`, nothing reads it, the first map is `-map [vfinal]`, and the second is `-map K:a` with K the index of the last input, which is the audio source |
| VideoGraph.CaptionSpec | controllers/videoController.js:162-163 | the caption text unescapes to the script wrapped at `floor(W/20)` and has no newline |
| Generate.ScriptSpec | controllers/videoController.js:136-143 | the script has no white space at either end and keeps every non-space character of the reply, or of `Script untuk: {prompt}` when the reply is empty |
| Generate.CountSpec | controllers/videoController.js:151 | with `total` clamped to [1, 30], the loop runs between 1 and 30 times for a parsed `total` and not at all for NaN |
| Generate.RenderEvents | controllers/videoController.js:283-294 | one `rendering` event per progress report, in order, carrying that report's percentage |
| Generate.JobEventsSpec | controllers/videoController.js:157-306 | a video's events all name it; they start with `starting` at 0 and `generating_script` at 2; a failed script call ends them there; otherwise one `rendering` event per report follows, at most 98, then `done` at 100 if ffmpeg ends or `error` at 0 if it fails |
| Generate.ProgressCanDrop | controllers/videoController.js:160-293 | a first report without a timemark shows 0 right after `generating_script` showed 2 |
| Generate.EntryAgreesWithEvents | controllers/videoController.js:297-313 | a video's result is a file exactly when its last event is `done` |
| Generate.AllEventsSplit | controllers/videoController.js:151-314 | the messages of the first m videos are a prefix of those of the first n, so each video's messages come before the next video's |
| Generate.GenerateVideos | controllers/videoController.js:84-317 | the answer is 401 exactly when no key is set; otherwise there are `total` ids, results and graphs, each video's entry and graph depend on that video alone, with a failure recorded as an error entry and the loop going on; every event goes out when the connection found at the start is open, and none otherwise |
| Generate.CollectResults | controllers/videoController.js:151-313 | the loop pushes one id and one result per video, a path or an error, and builds each video's graph from its own script |
| Generate.CollectEvents | controllers/videoController.js:151-306 | the loop sends each video's events in turn |
| JobQueue.AddJob | utils/queue.js:24-28 | the job joins the tail of the queue, one more tick is scheduled, nothing else changes, and the job's id is returned |
| JobQueue.WorkerStep | utils/queue.js:8-12 | a step with the cap reached or the queue empty changes nothing; otherwise the head job leaves the queue and starts, and `running` goes up by one |
| JobQueue.Callbacks | utils/queue.js:13-18 | `onComplete` runs exactly when `run` resolves and the job has one; `onError` runs exactly when the job has one and `run` rejects or `onComplete` throws; only the finishing job's callbacks run |
| JobQueue.Finish | utils/queue.js:13-21 | a finishing job, whatever its outcome, releases its slot once, schedules one tick, adds only its own callback calls, and leaves the queue and the other running jobs untouched |
| JobQueue.SetConcurrency | utils/queue.js:6 | the cap becomes `max(1, n)`, and NaN when n is NaN; nothing else changes |
| JobQueue.PendingCountSteps | utils/queue.js:24-30 | the pending count goes up by one per added job and down by one per tick that starts a job, and nothing else changes it |
| JobQueue.StepGood | utils/queue.js:6-28 | adding, ticking and finishing keep `running` equal to the started unfinished jobs, within the cap, with enough ticks scheduled to start every job that could start; a concurrency change keeps this when it does not raise the cap and the new cap is still at least the running count |
| JobQueue.RunGood | utils/queue.js:6-28 | with the concurrency left alone, any run of events keeps those invariants |
| JobQueue.ReadyMeansScheduled | utils/queue.js:19-26 | in such a state a waiting job with a free slot always has a tick scheduled |
| JobQueue.LoweringOverruns | utils/queue.js:6-9 | lowering the cap below the running count breaks the bound, and no job starts until enough finish |
| JobQueue.RaisingStalls | utils/queue.js:6-9 | raising the cap schedules no tick, so a job can wait with a slot free |
| JobQueue.RunFifo | utils/queue.js:10-25 | jobs start in the order they were added: the started jobs followed by the waiting ones are always everything ever queued, in order |
| Registry.OnMessage | server.js:47-55 | a hello with a session id registers the connection under that id, replacing any earlier one, and records the id on the connection; other ids and connections are untouched; any other message, or one that is not JSON, changes nothing |
| Registry.OnClose | server.js:57-59 | closing a connection that said hello removes the entry under its id and nothing else; closing any other connection changes nothing |
| Registry.Route | controllers/videoController.js:125-133 | a session whose last hello came from an open connection is delivered to, a session never registered is not, and once the connection that registered a session closes that session is not delivered to |
| Registry.LastWriterWins | server.js:50-53 | of two connections saying hello for one session, the later one is registered |
| Registry.CloseDropsNewer | server.js:57-59 | closing the older of two connections for a session unregisters the session although the newer one holds it |
| Registry.RehelloLeavesStale | server.js:50-59 | a connection that says hello for a second session leaves its first entry behind, even after it closes |
| Registry.ConsistentKept | server.js:47-59 | both handlers keep every registered connection one that said hello with a non-empty id |
| Registry.ExactKept | server.js:47-59 | every entry keeps naming a connection whose recorded id is the entry's own, as long as no connection switches sessions |

## Left out

- The ffmpeg calls are not modelled, only the arguments built for them. This covers `cmd.input`, `complexFilter`, `save`, the `end`, `error` and `progress` callbacks, the codec and output options, `size` and `fps`. These are an external process. Its progress reports and its outcome are parameters (`Generate.Attempt`).
- The Gemini request is not modelled, and neither is its prompt text. The reply comes in as a parameter: a text, no text, or a thrown error.
- `findFontFile` and the font directory, the upload paths and `uuidv4` are not modelled. They are filesystem and randomness: the font file, the image paths, the audio path and the video ids come in as parameters.
- Renderer.ZoomFramesSpec: the source computes `Math.floor((duration / n) * 25)` in double precision, and the model takes the exact quotient. The double product can fall just below a whole number and give one frame fewer: 23 s over 5 images gives 114 in the source and 115 in the model.
- Progress.WorkerPercentNearest, Progress.RoundDivNearest and the percentages of Progress.ControllerPercentSpec: the source rounds the double `(seconds / duration) * 100`, and the model rounds the exact ratio. At an exact half the double can fall just below it and round down. For example, 23 s of 40 gives 57 in the source and 58 in the model. The cap at 98 and the monotonicity hold either way.
- Floating-point timemarks are not modelled. A timemark is a list of fields already parsed to hundredths of a second, with `None` for a field `parseFloat` reads as NaN.
- The worker's `catch` that sets the percentage to 10 is not modelled. It only fires on a timemark that is not a string.
- Renderer.FadeOutStartSpec: `FadeOutStart` writes the fade-out start `duration - 0.8` as decimal text for integer durations only, for example `7.2` for 8. Non-integer durations and general floating-point printing are not modelled.
- The renderer's frame size (`Renderer.RenderOpts`) is carried as two integers rather than the size text `renderJob` receives. A size text that does not parse, which gives NaN width and height there, is not modelled. Neither is a size text with extra `x` parts, which would still reach the colour source's `s=` unchanged.
- Renderer.InputsSpec does not state the text of the colour source `color=c=0x0f78b4:s={size}:d={duration}`, only that it is a lavfi input.
- Strings.ParseIntRoundTrip does not model `parseInt`'s loss of precision on very long digit strings. Integers are unbounded.
- Text.WrapTextSpec counts length in characters. JavaScript counts UTF-16 code units, so the two differ for characters outside the Basic Multilingual Plane.
- Generate.GenerateVideos does not model a connection's `readyState` changing during a request. `readyState` is one function of the connection, fixed for the request, so its messages are all sent or all dropped.
- Generate.GenerateVideos does not model the text of error entries and error messages (`String(err)`). An error entry is `Failure`.
- Generate.GenerateVideos does not model the outer `catch` that answers 500. It only fires on a failure outside the per-video `try`, such as a malformed request object.
- The `imagesJson` and `audioUrl` body fields are not modelled. The image list and the audio file are given directly.
- The `message` and `output` fields of progress messages are not modelled.
- JobQueue.Callbacks does not model `onError` throwing.
- JobQueue.SetConcurrency does not model non-integer caps. `Math.max(1, n)` keeps a fractional n such as 2.5, and `running >= concurrency` then lets one more job start than the integer part; the model's cap is an integer or NaN.
- The queue model does not model the errors' values.
- Registry.OnMessage does not model a `sessionId` that is a truthy non-string, such as a number or an object. The session id is a string or absent.
- The Express and WebSocket server setup is not part of this model, nor are the routes, the session and authentication middleware, the database models, the admin and auth controllers, the font download script and the browser script. The `generateVeoN` handler named by routes/video.js does not exist in the controller.

=== FILE: basics.dfy ===
/** Small value types shared by every module of the model. */
module Basics {

  /** An absent-or-present value; `None` stands for JavaScript's `null`,
      `undefined` and, for numbers, `NaN`, wherever those are falsy. */
  datatype Option<T> = None | Some(value: T)

  function Max(a: int, b: int): int { if a >= b then a else b }

  function Min(a: int, b: int): int { if a <= b then a else b }
}

=== FILE: generate.dfy ===
/** `generateVideos` of controllers/videoController.js: one request makes
    `total` videos one after another. For each it sends progress events
    to the session's WebSocket client, asks the model for a script,
    builds the graph (module VideoGraph) and runs ffmpeg; a failure ends
    that video only. What the outside world does (the new ids, the
    model's replies, ffmpeg's progress and result) comes in as
    parameters. */
module Generate {
  import opened Basics
  import opened Strings
  import opened Params
  import opened Progress
  import opened Registry
  import VideoGraph

  datatype Status = Starting | GeneratingScript | Rendering | Done | Error

  /** A progress message: `{ videoId, status, progress }`. */
  datatype Event = Event(videoId: string, status: Status, progress: Number)

  /** The script call: it throws, or its response carries a text
      (`None` when it has none). */
  datatype Reply = CallFailed | Reply(text: Option<string>)

  /** What happens to one video outside the controller: the model's
      reply, the timemarks ffmpeg reports, and whether ffmpeg ends
      (`true`) or fails. */
  datatype Attempt = Attempt(reply: Reply, timemarks: seq<Option<seq<Option<int>>>>, rendered: bool)

  /** An entry of `results`: the video's path or `{ error }`. */
  datatype Entry = File(path: string) | Failure

  datatype Response =
    | Unauthorized
    | Generated(files: seq<Entry>, jobIds: seq<string>, sent: seq<Event>, graphs: seq<Option<seq<string>>>)

  /** `${f}` of a body field. */
  function FieldText(f: Field): string {
    match f
    case Missing => "undefined"
    case Text(s) => s
    case Flag(b) => if b then "true" else "false"
  }

  /** `(text || "Script untuk: " + prompt).trim()`. */
  function ScriptOf(text: Option<string>, prompt: Field): string {
    Trim(if text.Some? && text.value != "" then text.value else "Script untuk: " + FieldText(prompt))
  }

  /** The script has no white space at either end and keeps every other
      character of the reply, or of the fallback when the reply is empty. */
  lemma ScriptSpec(text: Option<string>, prompt: Field)
    ensures Trimmed(ScriptOf(text, prompt))
    ensures text.Some? && text.value != "" ==> NonSpace(ScriptOf(text, prompt)) == NonSpace(text.value)
    ensures !(text.Some? && text.value != "") ==>
      NonSpace(ScriptOf(text, prompt)) == NonSpace("Script untuk: " + FieldText(prompt))
  {
    var s := if text.Some? && text.value != "" then text.value else "Script untuk: " + FieldText(prompt);
    TrimFixesTrimmed(s);
    TrimKeepsNonSpace(s);
  }

  /** How many times the loop runs: `i < total` is false for NaN. */
  function Count(total: Option<int>): nat {
    if total.None? then 0 else Max(0, total.value)
  }

  lemma CountSpec(b: Body)
    ensures Count(ReadBody(b).total) <= 30
    ensures ReadBody(b).total.Some? ==> Count(ReadBody(b).total) >= 1
    ensures ReadBody(b).total.None? ==> Count(ReadBody(b).total) == 0
  {
    ReadBodyBounds(b);
  }

  /** A rendering event for each progress report. */
  function RenderEvents(id: string, timemarks: seq<Option<seq<Option<int>>>>, duration: Option<int>): (r: seq<Event>)
    ensures |r| == |timemarks|
    ensures forall k :: 0 <= k < |r| ==> r[k] == Event(id, Rendering, ControllerPercent(timemarks[k], duration))
  {
    if timemarks == [] then []
    else
      var last := Event(id, Rendering, ControllerPercent(timemarks[|timemarks| - 1], duration));
      RenderEvents(id, timemarks[..|timemarks| - 1], duration) + [last]
  }

  /** The events one video sends, in order. */
  function JobEvents(id: string, a: Attempt, duration: Option<int>): seq<Event> {
    var opening := [Event(id, Starting, Finite(0)), Event(id, GeneratingScript, Finite(2))];
    var closing := if a.rendered then Event(id, Done, Finite(100)) else Event(id, Error, Finite(0));
    if a.reply.CallFailed? then opening
    else opening + RenderEvents(id, a.timemarks, duration) + [closing]
  }

  /** The entry one video adds to `results`. */
  function EntryOf(id: string, a: Attempt): Entry {
    if a.reply.Reply? && a.rendered then File("/generated/" + id + ".mp4") else Failure
  }

  /** The graph ffmpeg is given for one video; none when the script call
      fails, since the graph is built after it. */
  function GraphOf(r: Request, images: seq<string>, audio: Option<string>, fontFile: Option<string>,
                   windows: bool, a: Attempt): Option<seq<string>>
  {
    if a.reply.CallFailed? then None
    else Some(VideoGraph.FilterTexts(VideoGraph.JobOf(r, images, audio, ScriptOf(a.reply.text, r.prompt), fontFile, windows)))
  }

  /** All events of the first n videos, video by video. */
  function AllEvents(ids: nat -> string, attempts: nat -> Attempt, duration: Option<int>, n: nat): seq<Event> {
    if n == 0 then [] else AllEvents(ids, attempts, duration, n - 1) + JobEvents(ids(n - 1), attempts(n - 1), duration)
  }

  predicate HasKey(key: Option<string>) {
    key.Some? && key.value != ""
  }

  /** The whole request. Without a key it answers 401. Otherwise each
      video gets its id, its entry (a path, or an error when the script
      call or the render fails, after which the loop goes on), and the
      graph built for it; its events reach the client only if the
      connection registered for the session when the request began is
      open. */
  method GenerateVideos(key: Option<string>, body: Body, images: seq<string>, audio: Option<string>,
                        fontFile: Option<string>, windows: bool,
                        reg: Registry, sid: string, readyState: Conn -> int,
                        ids: nat -> string, attempts: nat -> Attempt)
    returns (resp: Response)
    ensures resp.Unauthorized? <==> !HasKey(key)
    ensures resp.Generated? ==>
      var r := ReadBody(body);
      Produced(resp, r, images, audio, fontFile, windows, Delivers(Lookup(reg, sid), readyState), ids, attempts)
  {
    if !HasKey(key) {
      return Unauthorized;
    }
    var r := ReadBody(body);
    resp := MakeVideos(r, images, audio, fontFile, windows, Delivers(Lookup(reg, sid), readyState), ids, attempts);
  }

  /** What the loop produces for request values `r`: one id, entry and
      graph per video, each depending on that video's attempt alone, and
      every video's events when they are delivered. */
  predicate Produced(resp: Response, r: Request, images: seq<string>, audio: Option<string>,
                     fontFile: Option<string>, windows: bool, delivered: bool,
                     ids: nat -> string, attempts: nat -> Attempt)
  {
    var n := Count(r.total);
    && resp.Generated?
    && |resp.files| == n && |resp.jobIds| == n && |resp.graphs| == n
    && (forall i :: 0 <= i < n ==>
          && resp.jobIds[i] == ids(i)
          && resp.files[i] == EntryOf(ids(i), attempts(i))
          && resp.graphs[i] == GraphOf(r, images, audio, fontFile, windows, attempts(i)))
    && resp.sent == if delivered then AllEvents(ids, attempts, r.duration, n) else []
  }

  /** The loop over the videos; `sendWs` checks the client for every
      message, and it does not change during the request, so either all
      the events go out or none. */
  method MakeVideos(r: Request, images: seq<string>, audio: Option<string>,
                    fontFile: Option<string>, windows: bool, delivered: bool,
                    ids: nat -> string, attempts: nat -> Attempt)
    returns (resp: Response)
    ensures Produced(resp, r, images, audio, fontFile, windows, delivered, ids, attempts)
  {
    var files, jobIds, graphs := CollectResults(r, images, audio, fontFile, windows, ids, attempts);
    var events := CollectEvents(r, ids, attempts);
    var sent := if delivered then events else [];
    return Generated(files, jobIds, sent, graphs);
  }

  /** The ids, entries and graphs, one per turn of the loop. */
  method CollectResults(r: Request, images: seq<string>, audio: Option<string>,
                        fontFile: Option<string>, windows: bool,
                        ids: nat -> string, attempts: nat -> Attempt)
    returns (files: seq<Entry>, jobIds: seq<string>, graphs: seq<Option<seq<string>>>)
    ensures var n := Count(r.total);
      && |files| == n && |jobIds| == n && |graphs| == n
      && forall i :: 0 <= i < n ==>
          && jobIds[i] == ids(i)
          && files[i] == EntryOf(ids(i), attempts(i))
          && graphs[i] == GraphOf(r, images, audio, fontFile, windows, attempts(i))
  {
    var n := Count(r.total);
    files, jobIds, graphs := [], [], [];
    var i := 0;
    while i < n
      invariant 0 <= i <= n
      invariant |files| == i && |jobIds| == i && |graphs| == i
      invariant forall k :: 0 <= k < i ==>
        && jobIds[k] == ids(k)
        && files[k] == EntryOf(ids(k), attempts(k))
        && graphs[k] == GraphOf(r, images, audio, fontFile, windows, attempts(k))
    {
      var id := ids(i);
      var a := attempts(i);
      jobIds := jobIds + [id];
      graphs := graphs + [GraphOf(r, images, audio, fontFile, windows, a)];
      files := files + [EntryOf(id, a)];
      i := i + 1;
    }
  }

  /** The events of every video, in the order the loop sends them. */
  method CollectEvents(r: Request, ids: nat -> string, attempts: nat -> Attempt) returns (events: seq<Event>)
    ensures events == AllEvents(ids, attempts, r.duration, Count(r.total))
  {
    var n := Count(r.total);
    events := [];
    var i := 0;
    while i < n
      invariant 0 <= i <= n
      invariant events == AllEvents(ids, attempts, r.duration, i)
    {
      events := events + JobEvents(ids(i), attempts(i), r.duration);
      i := i + 1;
    }
  }

  // ---------------------------------------------------------------------------
  // Properties of one video's events
  // ---------------------------------------------------------------------------

  /** Every event names its video. It starts with `starting` at 0 and
      `generating_script` at 2. A failed script call ends it there.
      Otherwise one `rendering` event per report follows, never above 98,
      then `done` at 100 if ffmpeg ends or `error` at 0 if it fails. */
  lemma JobEventsSpec(id: string, a: Attempt, d: Option<int>)
    ensures var ev := JobEvents(id, a, d);
      && (forall k :: 0 <= k < |ev| ==> ev[k].videoId == id)
      && |ev| >= 2
      && ev[0] == Event(id, Starting, Finite(0))
      && ev[1] == Event(id, GeneratingScript, Finite(2))
      && (a.reply.CallFailed? ==> |ev| == 2)
      && (a.reply.Reply? ==>
            && |ev| == |a.timemarks| + 3
            && (forall k :: 2 <= k < |ev| - 1 ==>
                  && ev[k].status == Rendering
                  && (ev[k].progress.Finite? && d.Some? && d.value > 0 ==> ev[k].progress.value <= 98))
            && (ev[|ev| - 1].status == Done <==> a.rendered)
            && ev[|ev| - 1].progress == if a.rendered then Finite(100) else Finite(0))
  {
    if a.reply.Reply? {
      var ev := JobEvents(id, a, d);
      var re := RenderEvents(id, a.timemarks, d);
      assert ev == [ev[0], ev[1]] + re + [ev[|ev| - 1]];
      forall k | 2 <= k < |ev| - 1
        ensures ev[k].status == Rendering
        ensures ev[k].progress.Finite? && d.Some? && d.value > 0 ==> ev[k].progress.value <= 98
      {
        assert ev[k] == re[k - 2];
        if d.Some? && d.value > 0 {
          ControllerPercentSpec(a.timemarks[k - 2], d.value);
        }
      }
    }
  }

  /** The progress shown can go down: a first report without a timemark
      shows 0 right after `generating_script` showed 2, and a failed
      render ends at 0. */
  lemma ProgressCanDrop(id: string, a: Attempt, d: int)
    requires a.reply.Reply? && |a.timemarks| > 0 && a.timemarks[0] == None && d > 0
    ensures JobEvents(id, a, Some(d))[1].progress == Finite(2)
    ensures JobEvents(id, a, Some(d))[2].progress == Finite(0)
  {
    assert ControllerElapsed(None) == Some(0);
  }

  /** A video's entry is a file exactly when its last event is `done`. */
  lemma EntryAgreesWithEvents(id: string, a: Attempt, d: Option<int>)
    ensures var ev := JobEvents(id, a, d);
      EntryOf(id, a).File? <==> ev[|ev| - 1].status == Done
  {
  }

  /** The events of the first n videos are each video's events in turn,
      so video i's events all come before video i + 1's. */
  lemma AllEventsSplit(ids: nat -> string, attempts: nat -> Attempt, d: Option<int>, m: nat, n: nat)
    requires m <= n
    ensures |AllEvents(ids, attempts, d, m)| <= |AllEvents(ids, attempts, d, n)|
    ensures AllEvents(ids, attempts, d, n)[..|AllEvents(ids, attempts, d, m)|] == AllEvents(ids, attempts, d, m)
    decreases n
  {
    if m < n {
      AllEventsSplit(ids, attempts, d, m, n - 1);
      var a, b := AllEvents(ids, attempts, d, m), AllEvents(ids, attempts, d, n - 1);
      assert AllEvents(ids, attempts, d, n)[..|b|] == b;
      assert b[..|a|] == a;
    }
  }
}

=== FILE: graph.dfy ===
/** ffmpeg filter-graph statements as both pipelines write them: a run of
    bracketed input stream labels, a filter chain, one bracketed output
    label. Statements are typed records whose chain is a value of the
    pipeline's own chain type `C`; `Statement` prints the text a pipeline
    pushes into its filter list once the chain is printed. */
module Graph {
  import opened Strings

  /** The stream labels the pipelines use. */
  datatype Label =
    | InputVideo(index: nat)  // `[i:v]`, the video of input file i
    | Slide(index: nat)       // `[v{i}]`, image i scaled and padded
    | Zoom(index: nat)        // `[kb{i}]`, image i through zoompan
    | Concat                  // `[vconcat]`
    | Faded                   // `[vf]`
    | Out                     // `[vout]`
    | Final                   // `[vfinal]`

  /** The text between the brackets. */
  function LabelName(l: Label): string {
    match l
    case InputVideo(i) => NatToString(i) + ":v"
    case Slide(i) => "v" + NatToString(i)
    case Zoom(i) => "kb" + NatToString(i)
    case Concat => "vconcat"
    case Faded => "vf"
    case Out => "vout"
    case Final => "vfinal"
  }

  function ShowLabel(l: Label): string {
    "[" + LabelName(l) + "]"
  }

  /** Labels written one after the other, as `labels.join('')` does. */
  function ShowLabels(ls: seq<Label>): string {
    if ls == [] then "" else ShowLabels(ls[..|ls| - 1]) + ShowLabel(ls[|ls| - 1])
  }

  /** One filter statement. */
  datatype Filter<C> = Filter(ins: seq<Label>, chain: C, out: Label)

  /** The text of a statement whose chain prints as `chain`. */
  function Statement(ins: seq<Label>, chain: string, out: Label): string {
    ShowLabels(ins) + chain + ShowLabel(out)
  }

  /** The text of every statement, in order, printing chains with `chainText`. */
  function ShowAll<C>(fs: seq<Filter<C>>, chainText: C -> string): (r: seq<string>)
    ensures |r| == |fs|
    ensures forall k :: 0 <= k < |fs| ==> r[k] == Statement(fs[k].ins, chainText(fs[k].chain), fs[k].out)
  {
    seq(|fs|, k requires 0 <= k < |fs| => Statement(fs[k].ins, chainText(fs[k].chain), fs[k].out))
  }

  // ---------------------------------------------------------------------------
  // Labels print apart: the typed graph and its text describe the same wiring
  // ---------------------------------------------------------------------------

  lemma NatToStringInjective(i: nat, j: nat)
    requires NatToString(i) == NatToString(j)
    ensures i == j
  {
  }

  lemma DigitHead(i: nat)
    ensures IsDigit(NatToString(i)[0])
  {
  }

  /** The first characters of a label's text tell its kind. */
  lemma LabelHead(l: Label)
    ensures var s := LabelName(l);
      && |s| >= 2
      && (l.InputVideo? <==> IsDigit(s[0]))
      && (l.Slide? <==> s[0] == 'v' && IsDigit(s[1]))
      && (l.Zoom? <==> s[0] == 'k')
  {
    if l.InputVideo? || l.Slide? || l.Zoom? {
      DigitHead(l.index);
    }
  }

  /** Two labels with the same text are the same label. */
  lemma LabelNameInjective(a: Label, b: Label)
    requires LabelName(a) == LabelName(b)
    ensures a == b
  {
    var s := LabelName(a);
    LabelHead(a);
    LabelHead(b);
    match a
    case InputVideo(i) =>
      assert NatToString(i) == s[..|s| - 2] == NatToString(b.index);
      NatToStringInjective(i, b.index);
    case Slide(i) =>
      assert NatToString(i) == s[1..] == NatToString(b.index);
      NatToStringInjective(i, b.index);
    case Zoom(i) =>
      assert NatToString(i) == s[2..] == NatToString(b.index);
      NatToStringInjective(i, b.index);
    case _ =>
  }

  lemma ShowLabelInjective(a: Label, b: Label)
    requires ShowLabel(a) == ShowLabel(b)
    ensures a == b
  {
    assert LabelName(a) == ShowLabel(a)[1..|ShowLabel(a)| - 1];
    LabelNameInjective(a, b);
  }

  /** No label text is empty or holds a bracket. */
  lemma LabelNamePlain(l: Label)
    ensures LabelName(l) != ""
    ensures '[' !in LabelName(l) && ']' !in LabelName(l)
  {
    match l
    case InputVideo(i) => NotBracket(NatToString(i));
    case Slide(i) => NotBracket(NatToString(i));
    case Zoom(i) => NotBracket(NatToString(i));
    case _ =>
  }

  lemma NotBracket(s: string)
    requires AllDigits(s)
    ensures '[' !in s && ']' !in s
  {
  }

  /** `s.replace(/[\[\]]/g, "")`. */
  function StripBrackets(s: string): string {
    Remove(Remove(s, '['), ']')
  }

  lemma {:induction false} RemoveAppend(a: string, b: string, c: char)
    ensures Remove(a + b, c) == Remove(a, c) + Remove(b, c)
  {
    if a == [] {
      assert a + b == b;
    } else {
      assert (a + b)[1..] == a[1..] + b;
      RemoveAppend(a[1..], b, c);
    }
  }

  lemma {:induction false} RemoveAbsent(s: string, c: char)
    requires c !in s
    ensures Remove(s, c) == s
  {
    if s != [] {
      RemoveAbsent(s[1..], c);
      assert [s[0]] + s[1..] == s;
    }
  }

  /** Stripping the brackets off a printed label leaves its name, which
      is never empty. */
  lemma StripLabel(l: Label)
    ensures StripBrackets(ShowLabel(l)) == LabelName(l) != ""
  {
    LabelNamePlain(l);
    StripBracketed(LabelName(l));
  }

  lemma StripBracketed(n: string)
    requires '[' !in n && ']' !in n
    ensures StripBrackets("[" + n + "]") == n
  {
    RemoveAppend("[" + n, "]", '[');
    RemoveAppend("[", n, '[');
    RemoveAbsent(n, '[');
    assert Remove("[", '[') == "";
    assert Remove("]", '[') == "]";
    assert "" + n + "]" == n + "]";
    RemoveAppend(n, "]", ']');
    RemoveAbsent(n, ']');
    assert Remove("]", ']') == "";
  }

  /** One ffmpeg input and its input options. */
  datatype Input = Input(source: string, options: seq<string>)

  /** The lavfi source of silence used when no audio file is given. */
  const SilentAudio: string := "anullsrc=channel_layout=stereo:sample_rate=44100"

  /** The input the audio comes from: after the images, or after the
      single colour source when there are none. */
  function AudioIndex(images: nat): nat {
    if images > 0 then images else 1
  }

  // ---------------------------------------------------------------------------
  // Wiring
  // ---------------------------------------------------------------------------

  /** Some statement before position `k` outputs `l`. */
  predicate ProducedBefore<C>(fs: seq<Filter<C>>, k: int, l: Label)
    requires 0 <= k <= |fs|
  {
    exists p :: 0 <= p < k && fs[p].out == l
  }

  /** Every label a statement reads is either the video of one of the first
      `sources` input files or the output of an earlier statement. */
  predicate Wired<C>(fs: seq<Filter<C>>, sources: nat) {
    forall k, l :: 0 <= k < |fs| && l in fs[k].ins ==>
      (l.InputVideo? && l.index < sources) || ProducedBefore(fs, k, l)
  }

  /** No label is output by two statements. */
  predicate SingleAssignment<C>(fs: seq<Filter<C>>) {
    forall a, b :: 0 <= a < b < |fs| ==> fs[a].out != fs[b].out
  }

  /** Some statement reads `l`. */
  predicate Consumed<C>(fs: seq<Filter<C>>, l: Label) {
    exists k :: 0 <= k < |fs| && l in fs[k].ins
  }

  // ---------------------------------------------------------------------------
  // The per-image stage both pipelines share: for image i a statement
  // `[i:v]...[v{i}]`, and with Ken Burns a second one `[i:v]...[kb{i}]`
  // ---------------------------------------------------------------------------

  /** `slide(i)` reads the video of input i and outputs `[v{i}]`; `zoom(i)`
      reads it too and outputs `[kb{i}]`. */
  predicate StageShape<C>(slide: nat -> Filter<C>, zoom: nat -> Filter<C>, n: nat) {
    forall i: nat :: i < n ==>
      && slide(i).ins == [InputVideo(i)] && slide(i).out == Slide(i)
      && zoom(i).ins == [InputVideo(i)] && zoom(i).out == Zoom(i)
  }

  /** The statements of images 0..n-1 in order. */
  function PerImage<C>(n: nat, kenburns: bool, slide: nat -> Filter<C>, zoom: nat -> Filter<C>): seq<Filter<C>> {
    if n == 0 then []
    else PerImage(n - 1, kenburns, slide, zoom) + [slide(n - 1)] + (if kenburns then [zoom(n - 1)] else [])
  }

  /** The stream of image i that goes on to the concatenation. */
  function StreamOf(i: nat, kenburns: bool): Label {
    if kenburns then Zoom(i) else Slide(i)
  }

  function Streams(n: nat, kenburns: bool): (r: seq<Label>)
    ensures |r| == n
    ensures forall i :: 0 <= i < n ==> r[i] == StreamOf(i, kenburns)
  {
    if n == 0 then [] else Streams(n - 1, kenburns) + [StreamOf(n - 1, kenburns)]
  }

  /** Statements per image. */
  function Stride(kenburns: bool): nat { if kenburns then 2 else 1 }

  /** The image whose statement sits at position k of the stage. */
  function ImageAt(k: nat, kenburns: bool): nat { k / Stride(kenburns) }

  /** The statement at position k of the stage is a zoompan one. */
  predicate ZoomAt(k: nat, kenburns: bool) { kenburns && k % 2 == 1 }

  /** Where each statement of the stage sits: position k holds the
      statement of image `ImageAt(k)`, its zoompan one at odd positions
      when Ken Burns is on. */
  lemma {:induction false} PerImageAt<C>(n: nat, kb: bool, slide: nat -> Filter<C>, zoom: nat -> Filter<C>)
    ensures |PerImage(n, kb, slide, zoom)| == Stride(kb) * n
    ensures forall k :: 0 <= k < |PerImage(n, kb, slide, zoom)| ==>
      PerImage(n, kb, slide, zoom)[k] == if ZoomAt(k, kb) then zoom(ImageAt(k, kb)) else slide(ImageAt(k, kb))
  {
    if n > 0 {
      PerImageAt(n - 1, kb, slide, zoom);
      var m := |PerImage(n - 1, kb, slide, zoom)|;
      if kb {
        assert m == 2 * (n - 1);
        assert !ZoomAt(m, kb) && ImageAt(m, kb) == n - 1;
        assert ZoomAt(m + 1, kb) && ImageAt(m + 1, kb) == n - 1;
      } else {
        assert m == n - 1 && ImageAt(m, kb) == n - 1;
      }
    }
  }

  /** Image i's statements sit at positions `Stride * i` and, with Ken
      Burns, `2 * i + 1`. */
  lemma PositionsOf(i: nat, kb: bool)
    ensures ImageAt(Stride(kb) * i, kb) == i && !ZoomAt(Stride(kb) * i, kb)
    ensures kb ==> ImageAt(2 * i + 1, kb) == i && ZoomAt(2 * i + 1, kb)
  {
  }

  /** Every statement of the stage reads the video of its own image and
      outputs that image's `[v{i}]` or `[kb{i}]`. */
  lemma PerImageOut<C>(n: nat, kb: bool, slide: nat -> Filter<C>, zoom: nat -> Filter<C>, k: nat)
    requires StageShape(slide, zoom, n)
    requires k < |PerImage(n, kb, slide, zoom)|
    ensures var f := PerImage(n, kb, slide, zoom)[k];
      && ImageAt(k, kb) < n
      && f.ins == [InputVideo(ImageAt(k, kb))]
      && f.out == (if ZoomAt(k, kb) then Zoom(ImageAt(k, kb)) else Slide(ImageAt(k, kb)))
  {
    PerImageAt(n, kb, slide, zoom);
  }

  /** The stage outputs each of its labels once. */
  lemma PerImageSingle<C>(n: nat, kb: bool, slide: nat -> Filter<C>, zoom: nat -> Filter<C>)
    requires StageShape(slide, zoom, n)
    ensures SingleAssignment(PerImage(n, kb, slide, zoom))
  {
    var fs := PerImage(n, kb, slide, zoom);
    forall a, b | 0 <= a < b < |fs| ensures fs[a].out != fs[b].out {
      PerImageOut(n, kb, slide, zoom, a);
      PerImageOut(n, kb, slide, zoom, b);
      if ZoomAt(a, kb) == ZoomAt(b, kb) {
        assert ImageAt(a, kb) != ImageAt(b, kb);
      }
    }
  }

  /** Each image's stream is output by the stage. */
  lemma PerImageProduces<C>(n: nat, kb: bool, slide: nat -> Filter<C>, zoom: nat -> Filter<C>, i: nat)
    requires StageShape(slide, zoom, n)
    requires i < n
    ensures var fs := PerImage(n, kb, slide, zoom);
      && (if kb then 2 * i + 1 else i) < |fs|
      && fs[if kb then 2 * i + 1 else i].out == StreamOf(i, kb)
  {
    PerImageAt(n, kb, slide, zoom);
    PositionsOf(i, kb);
  }
}

=== FILE: params.dfy ===
/** The request parameters of the video controller
    (controllers/videoController.js): body fields with their defaults,
    the clamps on `total` and `duration`, and the output size, which both
    pipelines pass around as the text `WxH`. */
module Params {
  import opened Basics
  import opened Strings

  // ---------------------------------------------------------------------------
  // Size strings
  // ---------------------------------------------------------------------------

  /** The size text `${w}x${h}`. */
  function SizeText(w: int, h: int): string {
    IntToString(w) + "x" + IntToString(h)
  }

  /** `size.split("x").map(v => parseInt(v, 10))` read as `[W, H]`; a
      missing second piece is `undefined`, which parses to NaN (`None`). */
  function ParseSize(size: string): (Option<int>, Option<int>) {
    var parts := Split(size, 'x');
    (ParseInt(parts[0]), if |parts| >= 2 then ParseInt(parts[1]) else None)
  }

  lemma NoX(n: int)
    ensures 'x' !in IntToString(n)
  {
  }

  /** Reading a size text back gives its two numbers. */
  lemma ParseSizeRoundTrip(w: int, h: int)
    ensures ParseSize(SizeText(w, h)) == (Some(w), Some(h))
  {
    var a, b := IntToString(w), IntToString(h);
    NoX(w);
    NoX(h);
    SplitAppend(a, 'x', b);
    SplitNoSep(a, 'x');
    assert SizeText(w, h) == a + ['x'] + b;
    ParseIntRoundTrip(w);
    ParseIntRoundTrip(h);
  }

  // ---------------------------------------------------------------------------
  // Body fields
  // ---------------------------------------------------------------------------

  /** A request body field: absent, a form string, or a JSON boolean. */
  datatype Field = Missing | Text(s: string) | Flag(b: bool)

  /** JavaScript truthiness of a field. */
  predicate Truthy(f: Field) {
    match f
    case Missing => false
    case Text(s) => s != ""
    case Flag(b) => b
  }

  /** `f || dflt`. */
  function Or(f: Field, dflt: string): Field {
    if Truthy(f) then f else Text(dflt)
  }

  /** A truthy field is kept; the result is truthy unless both the field
      and the default are empty; and a second `|| dflt` changes nothing. */
  lemma OrSpec(f: Field, dflt: string)
    ensures Truthy(f) ==> Or(f, dflt) == f
    ensures Truthy(Or(f, dflt)) <==> Truthy(f) || dflt != ""
    ensures Or(Or(f, dflt), dflt) == Or(f, dflt)
  {
  }

  /** `parseInt(f, 10)`: a boolean prints as `true`/`false` and an absent
      field as `undefined`, none of which has a digit. */
  function ParseField(f: Field): Option<int> {
    match f
    case Text(s) => ParseInt(s)
    case _ => None
  }

  /** JavaScript truthiness of a parsed number: neither NaN nor zero. */
  predicate NumTruthy(x: Option<int>) {
    x.Some? && x.value != 0
  }

  /** `f === "true" || f === true`. */
  predicate IsTrue(f: Field) {
    f == Text("true") || f == Flag(true)
  }

  /** `Math.max(lo, Math.min(hi, x))`; NaN stays NaN. */
  function Clamp(lo: int, hi: int, x: Option<int>): Option<int> {
    if x.None? then None else Some(Max(lo, Min(hi, x.value)))
  }

  /** A clamp keeps NaN, keeps a number inside the bounds, and moves one
      outside to the nearer bound. */
  lemma ClampSpec(lo: int, hi: int, x: Option<int>)
    requires lo <= hi
    ensures var r := Clamp(lo, hi, x);
      && (r.None? <==> x.None?)
      && (r.Some? ==> lo <= r.value <= hi)
      && (x.Some? && lo <= x.value <= hi ==> r == x)
      && (x.Some? && x.value < lo ==> r == Some(lo))
      && (x.Some? && x.value > hi ==> r == Some(hi))
  {
  }

  const DefaultPrompt: string := "Topik umum singkat yang menarik"

  /** The body of a generate request. */
  datatype Body = Body(
    prompt: Field, preset: Field, total: Field, duration: Field,
    fontName: Field, position: Field, fontSize: Field,
    kenburns: Field, fade: Field, wordsTarget: Field,
    customWidth: Field, customHeight: Field)

  /** The values the controller derives from the body. */
  datatype Request = Request(
    prompt: Field, preset: Field, total: Option<int>, duration: Option<int>,
    fontName: Field, position: Field, fontSize: Option<int>,
    kenburns: bool, fade: bool, wordsTarget: int,
    customW: Option<int>, customH: Option<int>)

  /** `parseInt(f || dflt, 10)`. */
  function ReadNumber(f: Field, dflt: string): Option<int> {
    ParseField(Or(f, dflt))
  }

  /** Reading the body, field by field as the controller does. */
  function ReadBody(b: Body): Request {
    var words := ReadNumber(b.wordsTarget, "80");
    Request(
      prompt := Or(b.prompt, DefaultPrompt),
      preset := Or(b.preset, "reel"),
      total := Clamp(1, 30, ReadNumber(b.total, "1")),
      duration := Clamp(4, 120, ReadNumber(b.duration, "8")),
      fontName := Or(b.fontName, ""),
      position := Or(b.position, "middle"),
      fontSize := ReadNumber(b.fontSize, "40"),
      kenburns := IsTrue(b.kenburns),
      fade := IsTrue(b.fade),
      wordsTarget := if NumTruthy(words) then words.value else 80,
      customW := if Truthy(b.customWidth) then ParseField(b.customWidth) else None,
      customH := if Truthy(b.customHeight) then ParseField(b.customHeight) else None)
  }

  /** Decimal text of a number parses back to it. */
  lemma ParseText(s: string, n: int)
    requires s == IntToString(n)
    ensures ParseInt(s) == Some(n)
  {
    ParseIntRoundTrip(n);
  }

  /** The count and the duration are NaN or inside their bounds, and the
      flags hold exactly for the string or boolean `true`. */
  lemma ReadBodyBounds(b: Body)
    ensures var r := ReadBody(b);
      && (r.total.Some? ==> 1 <= r.total.value <= 30)
      && (r.duration.Some? ==> 4 <= r.duration.value <= 120)
      && r.wordsTarget != 0
      && (r.kenburns <==> b.kenburns == Text("true") || b.kenburns == Flag(true))
      && (r.fade <==> b.fade == Text("true") || b.fade == Flag(true))
  {
    ClampSpec(1, 30, ReadNumber(b.total, "1"));
    ClampSpec(4, 120, ReadNumber(b.duration, "8"));
  }

  /** Absent or empty fields take the defaults: one video of 8 seconds,
      font size 40. */
  lemma ReadBodyDefaults(b: Body)
    ensures !Truthy(b.total) ==> ReadBody(b).total == Some(1)
    ensures !Truthy(b.duration) ==> ReadBody(b).duration == Some(8)
    ensures !Truthy(b.fontSize) ==> ReadBody(b).fontSize == Some(40)
  {
    ShowDefaults();
    if !Truthy(b.total) { DefaultNumber(b.total, "1", 1); }
    if !Truthy(b.duration) { DefaultNumber(b.duration, "8", 8); }
    if !Truthy(b.fontSize) { DefaultNumber(b.fontSize, "40", 40); }
  }

  /** An absent or empty field reads as its default. */
  lemma DefaultNumber(f: Field, dflt: string, n: int)
    requires !Truthy(f) && dflt == IntToString(n)
    ensures ReadNumber(f, dflt) == Some(n)
  {
    ParseIntRoundTrip(n);
  }

  lemma ShowDefaults()
    ensures IntToString(1) == "1" && IntToString(8) == "8" && IntToString(40) == "40"
  {
  }

  /** A count or duration sent as decimal text arrives clamped. */
  lemma ReadBodyNumbers(b: Body, t: int, d: int)
    requires b.total == Text(IntToString(t)) && b.duration == Text(IntToString(d))
    ensures ReadBody(b).total == Some(Max(1, Min(30, t)))
    ensures ReadBody(b).duration == Some(Max(4, Min(120, d)))
  {
    ParseIntRoundTrip(t);
    ParseIntRoundTrip(d);
  }

  // ---------------------------------------------------------------------------
  // sizeFromPreset
  // ---------------------------------------------------------------------------

  /** The frame size `sizeFromPreset` chooses: the custom size when both
      custom values are non-zero numbers; otherwise portrait for `reel`
      and `short`, square for `square` and landscape for anything else. */
  function PresetDims(preset: Field, customW: Option<int>, customH: Option<int>): (int, int) {
    if NumTruthy(customW) && NumTruthy(customH) then (customW.value, customH.value)
    else if preset == Text("reel") || preset == Text("short") then (1080, 1920)
    else if preset == Text("square") then (1080, 1080)
    else (1920, 1080)
  }

  /** `sizeFromPreset(preset, customW, customH)`: the chosen size as
      text. For the presets `PresetTexts` shows these are the source's
      literals `1080x1920`, `1080x1080` and `1920x1080`. */
  function SizeFromPreset(preset: Field, customW: Option<int>, customH: Option<int>): string {
    var d := PresetDims(preset, customW, customH);
    SizeText(d.0, d.1)
  }

  lemma PresetTexts()
    ensures SizeText(1080, 1920) == "1080x1920"
    ensures SizeText(1080, 1080) == "1080x1080"
    ensures SizeText(1920, 1080) == "1920x1080"
  {
    Show1080();
    Show1920();
  }

  lemma Show1080() ensures IntToString(1080) == "1080" { }

  lemma Show1920() ensures IntToString(1920) == "1920" { }

  /** The frame size the controller reads back from the size text. */
  function Dimensions(r: Request): (int, int) {
    var size := ParseSize(SizeFromPreset(r.preset, r.customW, r.customH));
    (if size.0.Some? then size.0.value else 0, if size.1.Some? then size.1.value else 0)
  }

  /** Custom sizes win exactly when both are non-zero numbers; otherwise
      `reel` and `short` are portrait 1080x1920, `square` is 1080x1080 and
      anything else is landscape 1920x1080. The size text always reads
      back as two numbers. */
  lemma SizeFromPresetSpec(preset: Field, cw: Option<int>, ch: Option<int>)
    ensures var p := ParseSize(SizeFromPreset(preset, cw, ch));
      && p.0.Some? && p.1.Some?
      && (NumTruthy(cw) && NumTruthy(ch) ==> p == (cw, ch))
      && (!(NumTruthy(cw) && NumTruthy(ch)) ==>
            if preset == Text("reel") || preset == Text("short") then p == (Some(1080), Some(1920))
            else if preset == Text("square") then p == (Some(1080), Some(1080))
            else p == (Some(1920), Some(1080)))
  {
    var d := PresetDims(preset, cw, ch);
    ParseSizeRoundTrip(d.0, d.1);
  }
}

=== FILE: progress.dfy ===
/** The percentage both pipelines report from an ffmpeg progress event:
    the timemark `HH:MM:SS.xx` read as elapsed time and scaled to the
    video's duration, rounded and capped at 98. The worker
    (worker/renderer.js) skips fields that are zero or NaN; the
    controller (controllers/videoController.js) adds every field present,
    so a field that does not parse makes its percentage NaN. */
module Progress {
  import opened Basics
  import opened Params

  /** A JavaScript number as the progress formula can produce it. */
  datatype Number = Finite(value: int) | NaN | MinusInfinity

  /** `Math.floor(a / b)` for a non-zero divisor. */
  function FloorDiv(a: int, b: int): int
    requires b != 0
  {
    if b > 0 then a / b else (-a) / (-b)
  }

  /** `Math.round(a / b)`: halves round up. */
  function RoundDiv(a: int, b: int): int
    requires b != 0
  {
    FloorDiv(2 * a + b, 2 * b)
  }

  /** The rounded quotient is the integer nearest to a / b. */
  lemma RoundDivNearest(a: int, b: int)
    requires b > 0
    ensures var r := RoundDiv(a, b);
      2 * b * r - b <= 2 * a < 2 * b * r + b
  {
  }

  lemma RoundDivMonotone(a: int, c: int, b: int)
    requires b > 0 && a <= c
    ensures RoundDiv(a, b) <= RoundDiv(c, b)
  {
    var r1, r2 := RoundDiv(a, b), RoundDiv(c, b);
    RoundDivNearest(a, b);
    RoundDivNearest(c, b);
    if r1 > r2 {
      MulMonotone(b, 2 * r2 + 2, 2 * r1);
      assert false;
    }
  }

  lemma MulMonotone(b: int, x: int, y: int)
    requires b > 0 && x <= y
    ensures b * x <= b * y
  {
  }

  /** `Math.min(98, Math.round((seconds / duration) * 100))` with the
      elapsed time given in hundredths of a second: a zero duration gives
      Infinity (capped to 98), NaN or minus Infinity. */
  function Scaled(cs: int, duration: int): Number {
    if duration != 0 then Finite(Min(98, RoundDiv(cs, duration)))
    else if cs > 0 then Finite(98)
    else if cs == 0 then NaN
    else MinusInfinity
  }

  /** Field k of the timemark counted from the end (seconds first), as
      the reversed `parts` array holds it; `undefined` past its end. Each
      field is its parsed value in hundredths, `None` where `parseFloat`
      gives NaN. */
  function FromEnd(fields: seq<Option<int>>, k: nat): Option<int> {
    if k < |fields| then fields[|fields| - 1 - k] else None
  }

  /** The timemark used when ffmpeg reports none: `00:00:00`. */
  const ZeroTimemark: seq<Option<int>> := [Some(0), Some(0), Some(0)]

  function FieldsOf(timemark: Option<seq<Option<int>>>): seq<Option<int>> {
    if timemark.Some? then timemark.value else ZeroTimemark
  }

  // ---------------------------------------------------------------------------
  // The worker's reading
  // ---------------------------------------------------------------------------

  /** `if (parts[k]) seconds += parts[k] * unit`: only truthy fields count. */
  function TruthyTerm(x: Option<int>, unit: int): int {
    if NumTruthy(x) then x.value * unit else 0
  }

  /** The worker's elapsed time: seconds, minutes and hours read from the
      right, each skipped when zero, NaN or absent. */
  function WorkerElapsed(timemark: Option<seq<Option<int>>>): int {
    var fields := FieldsOf(timemark);
    TruthyTerm(FromEnd(fields, 0), 1) + TruthyTerm(FromEnd(fields, 1), 60)
      + TruthyTerm(FromEnd(fields, 2), 3600)
  }

  function WorkerPercent(timemark: Option<seq<Option<int>>>, duration: int): Number {
    Scaled(WorkerElapsed(timemark), duration)
  }

  /** A reported percentage is never above 98, and is a number whenever
      the duration is positive. */
  lemma WorkerPercentCapped(tm: Option<seq<Option<int>>>, d: int)
    ensures WorkerPercent(tm, d).Finite? ==> WorkerPercent(tm, d).value <= 98
    ensures d > 0 ==> WorkerPercent(tm, d).Finite?
  {
  }

  /** Below the cap the percentage is the elapsed share of the duration
      rounded to the nearest whole number. */
  lemma WorkerPercentNearest(tm: Option<seq<Option<int>>>, d: int)
    requires d > 0 && WorkerPercent(tm, d).value < 98
    ensures var p := WorkerPercent(tm, d).value;
      2 * d * p - d <= 2 * WorkerElapsed(tm) < 2 * d * p + d
  {
    RoundDivNearest(WorkerElapsed(tm), d);
  }

  /** A later timemark never reports a smaller percentage. */
  lemma WorkerPercentMonotone(tm: Option<seq<Option<int>>>, tm2: Option<seq<Option<int>>>, d: int)
    requires d > 0 && WorkerElapsed(tm) <= WorkerElapsed(tm2)
    ensures WorkerPercent(tm, d).value <= WorkerPercent(tm2, d).value
  {
    RoundDivMonotone(WorkerElapsed(tm), WorkerElapsed(tm2), d);
  }

  /** With no timemark the elapsed time is zero, and so is the percentage
      for any non-zero duration. */
  lemma WorkerPercentStart(d: int)
    requires d != 0
    ensures WorkerPercent(None, d) == Finite(0)
  {
  }

  // ---------------------------------------------------------------------------
  // The controller's reading
  // ---------------------------------------------------------------------------

  /** `if (parts.length > k) seconds += parts[k] * unit`: a present field
      always counts, and a NaN field makes the sum NaN. */
  function GuardedTerm(fields: seq<Option<int>>, k: nat, unit: int): Option<int> {
    if k < |fields| then
      (if FromEnd(fields, k).Some? then Some(FromEnd(fields, k).value * unit) else None)
    else Some(0)
  }

  function AddNumbers(a: Option<int>, b: Option<int>): Option<int> {
    if a.Some? && b.Some? then Some(a.value + b.value) else None
  }

  /** The controller's elapsed time, NaN (`None`) when a field it reads
      does not parse. */
  function ControllerElapsed(timemark: Option<seq<Option<int>>>): Option<int> {
    var fields := FieldsOf(timemark);
    AddNumbers(AddNumbers(GuardedTerm(fields, 0, 1), GuardedTerm(fields, 1, 60)), GuardedTerm(fields, 2, 3600))
  }

  /** The controller's percentage; its duration is NaN (`None`) when the
      duration field did not parse. */
  function ControllerPercent(timemark: Option<seq<Option<int>>>, duration: Option<int>): Number {
    var cs := ControllerElapsed(timemark);
    if cs.None? || duration.None? then NaN else Scaled(cs.value, duration.value)
  }

  /** The fields of the timemark that both readings look at parse. */
  predicate Parsed(timemark: Option<seq<Option<int>>>) {
    forall k: nat :: k < 3 && k < |FieldsOf(timemark)| ==> FromEnd(FieldsOf(timemark), k).Some?
  }

  /** The two readings agree exactly on timemarks whose fields parse: a
      zero field adds nothing either way. On a field that does not parse
      the controller reports NaN, while the worker skips it. */
  lemma ElapsedAgree(tm: Option<seq<Option<int>>>)
    ensures Parsed(tm) <==> ControllerElapsed(tm).Some?
    ensures Parsed(tm) ==> ControllerElapsed(tm) == Some(WorkerElapsed(tm))
  {
    var fields := FieldsOf(tm);
    if !Parsed(tm) {
      var k: nat :| k < 3 && k < |fields| && FromEnd(fields, k).None?;
      assert GuardedTerm(fields, k, if k == 0 then 1 else if k == 1 then 60 else 3600).None?;
    }
  }

  /** On a duration the clamp can produce the controller's percentage is
      a number exactly when the timemark parses, never above 98, and the
      same as the worker's for the same duration. */
  lemma ControllerPercentSpec(tm: Option<seq<Option<int>>>, d: int)
    requires d > 0
    ensures ControllerPercent(tm, Some(d)).Finite? <==> Parsed(tm)
    ensures Parsed(tm) ==> ControllerPercent(tm, Some(d)) == WorkerPercent(tm, d)
    ensures ControllerPercent(tm, Some(d)).Finite? ==> ControllerPercent(tm, Some(d)).value <= 98
  {
    ElapsedAgree(tm);
  }

  /** A NaN duration gives a NaN percentage whatever the timemark. */
  lemma ControllerPercentNaN(tm: Option<seq<Option<int>>>)
    ensures ControllerPercent(tm, None) == NaN
  {
  }
}

=== FILE: queue.dfy ===
/** The job queue of utils/queue.js as a state machine. `PENDING` is a
    FIFO of jobs, `running` counts the jobs whose `run` is in progress and
    `concurrency` caps it. Each `setImmediate(workerLoop)` is a scheduled
    tick; a tick runs one `workerLoop` step, which starts at most one job.
    The `await job.run()` splits into the step that starts the job and a
    later finish event, which runs the callbacks, releases the slot and
    schedules another tick. */
module JobQueue {
  import opened Basics

  /** A job: its id and which callbacks it carries. */
  datatype Job = Job(id: string, onComplete: bool, onError: bool)

  /** How a started job ends: `run` resolves (and then `onComplete` may
      throw) or rejects. */
  datatype Outcome = Resolved(completeThrows: bool) | Rejected

  /** A callback call, in the order they happen. */
  datatype Call = Completed(id: string) | Errored(id: string)

  /** The queue's state. `concurrency` is `None` when it was set to NaN,
      which no count reaches. `active` lists the started jobs not yet
      finished; `started` (every job ever started, in order) and `calls`
      are history kept by the model, not by the source. */
  datatype Queue = Queue(
    pending: seq<Job>, running: int, concurrency: Option<int>, ticks: nat,
    active: seq<Job>, started: seq<Job>, calls: seq<Call>)

  /** The module's initial state: concurrency 2, nothing queued. */
  const Initial: Queue := Queue([], 0, Some(2), 0, [], [], [])

  /** `running >= concurrency`. */
  predicate Blocked(q: Queue) {
    q.concurrency.Some? && q.running >= q.concurrency.value
  }

  /** `pendingCount()`. */
  function PendingCount(q: Queue): (n: nat)
    ensures n == |q.pending|
  {
    |q.pending|
  }

  /** `addJob(job)`: the job joins the tail of the queue, a tick is
      scheduled, and the job's id is returned. */
  function AddJob(q: Queue, job: Job): (r: (Queue, string))
    ensures PendingCount(r.0) == PendingCount(q) + 1
    ensures r.0.pending[..|q.pending|] == q.pending && r.0.pending[|q.pending|] == job
    ensures r.0.ticks == q.ticks + 1
    ensures r.0.running == q.running && r.0.active == q.active && r.0.concurrency == q.concurrency
    ensures r.1 == job.id
  {
    (q.(pending := q.pending + [job], ticks := q.ticks + 1), job.id)
  }

  /** One `workerLoop` step: nothing when the cap is reached or the queue
      is empty; otherwise the head job leaves the queue and starts. */
  function WorkerStep(q: Queue): (r: Queue)
    ensures Blocked(q) || |q.pending| == 0 ==> r == q
    ensures !Blocked(q) && |q.pending| > 0 ==>
      && r.pending == q.pending[1..]
      && r.running == q.running + 1
      && r.active == q.active + [q.pending[0]]
      && r.started == q.started + [q.pending[0]]
      && r.ticks == q.ticks && r.calls == q.calls && r.concurrency == q.concurrency
  {
    if Blocked(q) || |q.pending| == 0 then q
    else
      var job := q.pending[0];
      q.(pending := q.pending[1..], running := q.running + 1,
         active := q.active + [job], started := q.started + [job])
  }

  /** The callbacks a finishing job runs: `onComplete` once `run`
      resolves, and `onError` when `run` rejects or `onComplete` throws. */
  function Callbacks(job: Job, o: Outcome): (r: seq<Call>)
    ensures Completed(job.id) in r <==> o.Resolved? && job.onComplete
    ensures Errored(job.id) in r <==> job.onError && (o.Rejected? || (job.onComplete && o.completeThrows))
    ensures forall c :: c in r ==> c.id == job.id
    ensures |r| <= 2 && (|r| == 2 ==> r == [Completed(job.id), Errored(job.id)])
  {
    match o
    case Resolved(throws) =>
      if !job.onComplete then []
      else if throws && job.onError then [Completed(job.id), Errored(job.id)]
      else [Completed(job.id)]
    case Rejected => if job.onError then [Errored(job.id)] else []
  }

  /** The started job `active[k]` finishes: its callbacks run, the
      `finally` block releases its slot once and schedules a tick. The
      queue and the other running jobs are untouched, whatever the
      outcome. */
  function Finish(q: Queue, k: nat, o: Outcome): (r: Queue)
    requires k < |q.active|
    ensures r.running == q.running - 1 && r.ticks == q.ticks + 1
    ensures r.active == q.active[..k] + q.active[k + 1..]
    ensures r.pending == q.pending && r.started == q.started && r.concurrency == q.concurrency
    ensures |q.calls| <= |r.calls| && r.calls[..|q.calls|] == q.calls
    ensures forall i :: |q.calls| <= i < |r.calls| ==> r.calls[i].id == q.active[k].id
  {
    q.(running := q.running - 1, ticks := q.ticks + 1,
       active := q.active[..k] + q.active[k + 1..],
       calls := q.calls + Callbacks(q.active[k], o))
  }

  /** `setConcurrency(n)`: `Math.max(1, n)`, where NaN stays NaN. */
  function SetConcurrency(q: Queue, n: Option<int>): (r: Queue)
    ensures r.concurrency.Some? <==> n.Some?
    ensures r.concurrency.Some? ==> r.concurrency.value >= 1
    ensures n.Some? && n.value >= 1 ==> r.concurrency == n
    ensures n.Some? && n.value < 1 ==> r.concurrency == Some(1)
    ensures r == q.(concurrency := r.concurrency)
  {
    q.(concurrency := if n.None? then None else Some(Max(1, n.value)))
  }

  /** The events that drive the queue. */
  datatype Event = Add(job: Job) | Tick | Done(k: nat, outcome: Outcome) | SetLimit(n: Option<int>)

  /** One event; a tick only fires when one is scheduled and only a
      started job can finish. */
  function Step(q: Queue, e: Event): Queue {
    match e
    case Add(job) => AddJob(q, job).0
    case Tick => if q.ticks == 0 then q else WorkerStep(q.(ticks := q.ticks - 1))
    case Done(k, o) => if k < |q.active| then Finish(q, k, o) else q
    case SetLimit(n) => SetConcurrency(q, n)
  }

  function Run(q: Queue, es: seq<Event>): Queue
    decreases |es|
  {
    if es == [] then q else Run(Step(q, es[0]), es[1..])
  }

  /** The jobs the events add, in order. */
  function Added(es: seq<Event>): seq<Job>
    decreases |es|
  {
    if es == [] then [] else (if es[0].Add? then [es[0].job] else []) + Added(es[1..])
  }

  // ---------------------------------------------------------------------------
  // Invariants
  // ---------------------------------------------------------------------------

  /** `running` counts the started, unfinished jobs. */
  predicate Counted(q: Queue) {
    q.running == |q.active|
  }

  /** The cap is respected. */
  predicate Bounded(q: Queue) {
    q.concurrency.Some? ==> q.running <= q.concurrency.value
  }

  /** How many queued jobs could start now. */
  function Slack(q: Queue): int {
    if q.concurrency.None? then |q.pending| else Min(q.concurrency.value - q.running, |q.pending|)
  }

  /** Enough ticks are scheduled to start every job that could start. */
  predicate Ready(q: Queue) {
    q.ticks >= Slack(q)
  }

  predicate Good(q: Queue) {
    Counted(q) && Bounded(q) && Ready(q)
  }

  /** A ready queue never leaves a job waiting while a slot is free:
      a tick is scheduled. */
  lemma ReadyMeansScheduled(q: Queue)
    requires Ready(q) && |q.pending| > 0 && !Blocked(q)
    ensures q.ticks > 0
  {
  }

  lemma InitialGood()
    ensures Good(Initial) && Initial.pending == [] && PendingCount(Initial) == 0
  {
  }

  /** A concurrency change that does not raise the cap. */
  predicate Lowers(q: Queue, n: Option<int>) {
    n.Some? && q.concurrency.Some? && Max(1, n.value) <= q.concurrency.value
  }

  /** Adding, ticking and finishing keep the invariants, and so does a
      concurrency change that neither raises the cap nor drops it below
      the running count. */
  lemma StepGood(q: Queue, e: Event)
    requires Good(q)
    requires e.SetLimit? ==> Lowers(q, e.n) && q.running <= Max(1, e.n.value)
    ensures Good(Step(q, e))
  {
    match e
    case Add(job) =>
    case Tick =>
      if q.ticks > 0 {
        var q1 := q.(ticks := q.ticks - 1);
        assert Slack(q1) == Slack(q);
      }
    case Done(k, o) =>
    case SetLimit(n) =>
  }

  /** Lowering the cap below the running count breaks the bound: the
      jobs already running go on, and no job starts until enough finish. */
  lemma LoweringOverruns(q: Queue, n: int)
    requires Counted(q) && q.running > Max(1, n)
    ensures !Bounded(SetConcurrency(q, Some(n)))
    ensures WorkerStep(SetConcurrency(q, Some(n))) == SetConcurrency(q, Some(n))
  {
  }

  /** Raising the cap schedules nothing: a job can wait with a slot free
      and no tick scheduled, until a running job finishes. */
  lemma RaisingStalls(j0: Job, j1: Job)
    ensures var q := Queue([j1], 1, Some(1), 0, [j0], [j0], []);
      && Good(q)
      && var q' := SetConcurrency(q, Some(2));
      && |q'.pending| > 0 && !Blocked(q') && q'.ticks == 0
      && Step(q', Tick) == q'
  {
  }

  /** Jobs start in the order they were added: what has started, followed
      by what still waits, is always everything ever queued in order. */
  lemma {:induction false} RunFifo(q: Queue, es: seq<Event>)
    ensures Run(q, es).started + Run(q, es).pending == q.started + q.pending + Added(es)
    decreases |es|
  {
    if es != [] {
      var q1 := Step(q, es[0]);
      StepFifo(q, es[0]);
      RunFifo(q1, es[1..]);
    }
  }

  lemma StepFifo(q: Queue, e: Event)
    ensures Step(q, e).started + Step(q, e).pending == q.started + q.pending + (if e.Add? then [e.job] else [])
  {
    match e
    case Tick =>
      if q.ticks > 0 && !Blocked(q) && |q.pending| > 0 {
        assert [q.pending[0]] + q.pending[1..] == q.pending;
      }
    case _ =>
  }

  /** The pending count goes up by one per added job and down by one per
      tick that starts a job; nothing else changes it. */
  lemma PendingCountSteps(q: Queue, e: Event)
    ensures var starts := e.Tick? && q.ticks > 0 && !Blocked(q) && |q.pending| > 0;
      PendingCount(Step(q, e)) == PendingCount(q) + (if e.Add? then 1 else 0) - (if starts then 1 else 0)
  {
  }

  /** Events that never change the concurrency. */
  predicate FixedLimit(es: seq<Event>) {
    forall i :: 0 <= i < |es| ==> !es[i].SetLimit?
  }

  /** With the concurrency left alone, any run of events keeps the
      invariants: never more than `concurrency` jobs at once, and never a
      queued job stranded while a slot is free. */
  lemma {:induction false} RunGood(q: Queue, es: seq<Event>)
    requires Good(q) && FixedLimit(es)
    ensures Good(Run(q, es))
    decreases |es|
  {
    if es != [] {
      StepGood(q, es[0]);
      assert FixedLimit(es[1..]) by {
        forall i | 0 <= i < |es[1..]| ensures !es[1..][i].SetLimit? {
          assert es[1..][i] == es[i + 1];
        }
      }
      RunGood(Step(q, es[0]), es[1..]);
    }
  }
}

=== FILE: registry.dfy ===
/** The progress registry of server.js: a map from session id to the
    WebSocket connection that said `hello` for it, and on each connection
    the session id it registered, together with the rule the video
    controller uses to decide whether a progress message reaches its
    client (controllers/videoController.js). */
module Registry {
  import opened Basics

  /** A connection, by identity. */
  type Conn = nat

  /** `wsMap`, and the `sessionId` property set on each connection. */
  datatype Registry = Registry(sockets: map<string, Conn>, sessionOf: map<Conn, string>)

  const Empty: Registry := Registry(map[], map[])

  /** A message as `JSON.parse` leaves it: not JSON at all, or an object
      with its `type` and `sessionId` when they are strings. */
  datatype Message = Malformed | Message(kind: Option<string>, sessionId: Option<string>)

  /** `data.type === "hello" && data.sessionId`. */
  predicate IsHello(m: Message) {
    m.Message? && m.kind == Some("hello") && m.sessionId.Some? && m.sessionId.value != ""
  }

  /** `wsMap.get(sid)`. */
  function Lookup(r: Registry, sid: string): Option<Conn> {
    if sid in r.sockets then Some(r.sockets[sid]) else None
  }

  /** The connection's message handler: a hello registers the connection
      under its session id, replacing whichever connection held it, and
      records the id on the connection; anything else changes nothing. */
  function OnMessage(r: Registry, c: Conn, m: Message): (r': Registry)
    ensures IsHello(m) ==> Lookup(r', m.sessionId.value) == Some(c)
    ensures IsHello(m) ==> c in r'.sessionOf && r'.sessionOf[c] == m.sessionId.value
    ensures IsHello(m) ==> forall s :: s != m.sessionId.value ==> Lookup(r', s) == Lookup(r, s)
    ensures IsHello(m) ==> forall d :: d != c && d in r.sessionOf ==> d in r'.sessionOf && r'.sessionOf[d] == r.sessionOf[d]
    ensures !IsHello(m) ==> r' == r
  {
    if IsHello(m) then
      var sid := m.sessionId.value;
      Registry(r.sockets[sid := c], r.sessionOf[c := sid])
    else r
  }

  /** The connection's close handler: `wsMap.delete(ws.sessionId)` when the
      connection said hello. It removes the entry under that id whatever
      connection the entry now names. */
  function OnClose(r: Registry, c: Conn): (r': Registry)
    ensures c in r.sessionOf && r.sessionOf[c] != "" ==> Lookup(r', r.sessionOf[c]) == None
    ensures forall s :: (c !in r.sessionOf || s != r.sessionOf[c]) ==> Lookup(r', s) == Lookup(r, s)
    ensures r'.sessionOf == r.sessionOf
  {
    if c in r.sessionOf && r.sessionOf[c] != "" then
      Registry(r.sockets - {r.sessionOf[c]}, r.sessionOf)
    else r
  }

  function Hello(sid: string): Message {
    Message(Some("hello"), Some(sid))
  }

  /** `sendWs`: a message goes out only when the connection looked up at
      the start of the request exists and is open (`readyState` 1);
      otherwise it is dropped without a word. */
  predicate Delivers(client: Option<Conn>, readyState: Conn -> int) {
    client.Some? && readyState(client.value) == 1
  }

  /** Routing after the handlers run: a session whose last hello came
      from an open connection gets its messages, a session never
      registered gets none, and once the connection that registered a
      session closes, that session gets none whatever `readyState` says. */
  lemma Route(r: Registry, c: Conn, sid: string, readyState: Conn -> int)
    requires sid != ""
    ensures Delivers(Lookup(OnMessage(r, c, Hello(sid)), sid), readyState) <==> readyState(c) == 1
    ensures sid !in r.sockets ==> !Delivers(Lookup(r, sid), readyState)
    ensures c in r.sessionOf && r.sessionOf[c] == sid ==> !Delivers(Lookup(OnClose(r, c), sid), readyState)
  {
    assert IsHello(Hello(sid));
  }

  // ---------------------------------------------------------------------------
  // Properties
  // ---------------------------------------------------------------------------

  /** Every registered connection has said hello, and every recorded id
      is non-empty. */
  predicate Consistent(r: Registry) {
    && (forall s :: s in r.sockets ==> r.sockets[s] in r.sessionOf)
    && (forall c :: c in r.sessionOf ==> r.sessionOf[c] != "")
  }

  lemma ConsistentKept(r: Registry, c: Conn, m: Message)
    requires Consistent(r)
    ensures Consistent(OnMessage(r, c, m))
    ensures Consistent(OnClose(r, c))
  {
  }

  /** Of two connections saying hello for one session, the later wins. */
  lemma LastWriterWins(r: Registry, a: Conn, b: Conn, sid: string)
    requires sid != ""
    ensures Lookup(OnMessage(OnMessage(r, a, Hello(sid)), b, Hello(sid)), sid) == Some(b)
  {
    assert IsHello(Hello(sid));
  }

  /** Closing an older connection of a session unregisters the session
      even though a newer connection has taken it over: the newer one
      then receives no progress. */
  lemma CloseDropsNewer(r: Registry, a: Conn, b: Conn, sid: string)
    requires sid != "" && a != b
    ensures var r1 := OnMessage(OnMessage(r, a, Hello(sid)), b, Hello(sid));
      && Lookup(r1, sid) == Some(b)
      && Lookup(OnClose(r1, a), sid) == None
  {
    assert IsHello(Hello(sid));
  }

  /** A connection that says hello for a second session leaves its first
      entry behind, and closing it does not remove that entry. */
  lemma RehelloLeavesStale(r: Registry, c: Conn, s1: string, s2: string)
    requires s1 != "" && s2 != "" && s1 != s2
    ensures Lookup(OnClose(OnMessage(OnMessage(r, c, Hello(s1)), c, Hello(s2)), c), s1) == Some(c)
  {
    assert IsHello(Hello(s1)) && IsHello(Hello(s2));
  }

  /** Registrations are exact: each entry names a connection whose
      recorded id is that entry's own. */
  predicate Exact(r: Registry) {
    forall s :: s in r.sockets ==> r.sockets[s] in r.sessionOf && r.sessionOf[r.sockets[s]] == s
  }

  /** Hellos keep registrations exact as long as no connection switches
      to another session; closes always do. */
  lemma ExactKept(r: Registry, c: Conn, m: Message)
    requires Exact(r)
    requires IsHello(m) && c in r.sessionOf ==> r.sessionOf[c] == m.sessionId.value
    ensures Exact(OnMessage(r, c, m))
    ensures Exact(OnClose(r, c))
  {
    if c in r.sessionOf && r.sessionOf[c] != "" {
      var r' := OnClose(r, c);
      forall s | s in r'.sockets ensures r'.sockets[s] in r'.sessionOf && r'.sessionOf[r'.sockets[s]] == s {
        assert s in r.sockets && r'.sockets[s] == r.sockets[s];
      }
    }
  }
}

=== FILE: renderer.dfy ===
/** worker/renderer.js: the ffmpeg inputs, filter statements and stream
    maps `renderJob` builds, and the percentage it reports from a
    progress timemark. The ffmpeg process itself is not modelled. */
module Renderer {
  import opened Basics
  import opened Strings
  import opened Text
  import opened Graph
  import opened Params

  /** The options `renderJob` reads, after its defaults (duration 8,
      Ken Burns and fade on, size 720x1280, empty font and overlay). The
      size text is carried as its two numbers; `ParseSizeRoundTrip` shows
      that reading `SizeText(width, height)` gives them back. */
  datatype RenderOpts = RenderOpts(
    images: seq<string>, audio: Option<string>, duration: int,
    kenburns: bool, fade: bool, fontFile: string,
    width: int, height: int, textOverlay: Option<string>)

  function Defaults(images: seq<string>): RenderOpts {
    RenderOpts(images, None, 8, true, true, "", 720, 1280, Some(""))
  }

  predicate HasAudio(o: RenderOpts) {
    o.audio.Some? && o.audio.value != ""
  }

  /** The video inputs: a lavfi colour source when there are no images,
      otherwise each image looped. */
  function VideoInputs(o: RenderOpts): (r: seq<Input>)
    ensures |r| == Max(1, |o.images|)
  {
    if |o.images| == 0 then
      [Input("color=c=0x0f78b4:s=" + SizeText(o.width, o.height) + ":d=" + IntToString(o.duration), ["-f lavfi"])]
    else
      seq(|o.images|, i requires 0 <= i < |o.images| => Input(o.images[i], ["-loop 1"]))
  }

  /** The audio input: the given file, or lavfi silence. */
  function AudioInput(o: RenderOpts): Input {
    if HasAudio(o) then Input(o.audio.value, []) else Input(SilentAudio, ["-f lavfi"])
  }

  function Inputs(o: RenderOpts): seq<Input> {
    VideoInputs(o) + [AudioInput(o)]
  }

  /** The inputs are the video sources followed by one audio source, at
      the index the audio map names. */
  lemma InputsSpec(o: RenderOpts)
    ensures var ins := Inputs(o);
      && |ins| == Max(1, |o.images|) + 1
      && AudioIndex(|o.images|) == |ins| - 1
      && ins[AudioIndex(|o.images|)] == AudioInput(o)
      && (|o.images| == 0 ==> ins[0].options == ["-f lavfi"])
      && (forall i :: 0 <= i < |o.images| ==> ins[i] == Input(o.images[i], ["-loop 1"]))
  {
  }

  // ---------------------------------------------------------------------------
  // Filter statements
  // ---------------------------------------------------------------------------

  /** `Math.max(2, Math.floor(duration / n))`: seconds per image. */
  function SlideSeconds(duration: int, n: nat): int
    requires n > 0
  {
    Max(2, duration / n)
  }

  /** `Math.max(25, Math.floor((duration / n) * 25))`: zoompan frames per
      image, at 25 frames a second, with the quotient taken exactly. */
  function ZoomFrames(duration: int, n: nat): int
    requires n > 0
  {
    Max(25, (duration * 25) / n)
  }

  /** Seconds per image is the largest whole share of the duration, but
      never below two. */
  lemma SlideSecondsSpec(d: int, n: nat)
    requires n > 0
    ensures var t := SlideSeconds(d, n);
      && t >= 2
      && (t == 2 || (t * n <= d < (t + 1) * n))
      && (d >= 2 * n ==> t * n <= d < (t + 1) * n)
  {
  }

  /** Frames per image is the largest whole number of frames in the
      image's share, but never below 25. */
  lemma ZoomFramesSpec(d: int, n: nat)
    requires n > 0
    ensures var f := ZoomFrames(d, n);
      && f >= 25
      && (f == 25 || (f * n <= 25 * d < (f + 1) * n))
  {
  }

  /** A decimal text with one fractional digit, `a.b` or `-a.b`, read as a
      number of tenths; `None` for any other text. */
  function Tenths(s: string): Option<int> {
    var neg := |s| > 0 && s[0] == '-';
    var parts := Split(if neg then s[1..] else s, '.');
    if |parts| == 2 && parts[0] != [] && AllDigits(parts[0]) && |parts[1]| == 1 && IsDigit(parts[1][0]) then
      var v := 10 * DigitsValue(parts[0]) + (parts[1][0] as int - '0' as int);
      Some(if neg then -v else v)
    else None
  }

  /** The filter chains `renderJob` writes, with the numbers they print. */
  datatype Chain =
    | ColourFit(w: int, h: int, duration: int)
    | FitImage(w: int, h: int, seconds: int)
    | ZoomIn(frames: int, w: int, h: int)
    | ToYuv
    | ConcatAll(n: nat)
    | FadeInOut(duration: int)
    | Caption(fontFile: string, overlay: Option<string>, width: int)
    | PassThrough

  /** How JavaScript prints `duration - 0.8`: `7.2` for 8, the binary
      rounding artefact `0.19999999999999996` for 1, and `-0.8`, `-1.8`,
      ... for 0, -1, .... */
  function FadeOutStart(duration: int): string {
    if duration >= 2 then IntToString(duration - 1) + ".2"
    else if duration == 1 then "0.19999999999999996"
    else "-" + IntToString(-duration) + ".8"
  }

  /** The overlay wrapped to `max(20, floor(W/22))` characters a line and
      escaped for drawtext. */
  function OverlayText(overlay: Option<string>, width: int): string {
    Sanitize(Some(WrapText(overlay, Max(20, width / 22))))
  }

  /** The text of a chain. */
  function ShowChain(c: Chain): string {
    match c
    case ColourFit(w, h, d) =>
      "scale=" + IntToString(w) + ":" + IntToString(h)
      + ",setsar=1,trim=duration=" + IntToString(d) + ",setpts=PTS-STARTPTS"
    case FitImage(w, h, t) =>
      "scale=w=" + IntToString(w) + ":h=" + IntToString(h) + ":force_original_aspect_ratio=decrease,pad="
      + IntToString(w) + ":" + IntToString(h) + ":(ow-iw)/2:(oh-ih)/2,trim=duration=" + IntToString(t)
      + ",setpts=PTS-STARTPTS"
    case ZoomIn(f, w, h) =>
      "zoompan=z='min(zoom+0.0009,1.06)':d=" + IntToString(f) + ":s=" + SizeText(w, h)
    case ToYuv => "format=yuv420p"
    case ConcatAll(n) => "concat=n=" + IntToString(n) + ":v=1:a=0"
    case FadeInOut(d) =>
      "fade=t=in:st=0:d=0.6,fade=t=out:st=" + FadeOutStart(d) + ":d=0.8,format=yuv420p"
    case Caption(font, overlay, w) =>
      "drawtext=fontfile='" + font + "':text='" + OverlayText(overlay, w)
      + "':fontcolor=white:fontsize=" + IntToString(Max(28, w / 28))
      + ":box=1:boxcolor=black@0.5:boxborderw=10:x=(w-text_w)/2:y=(h-text_h)/2"
    case PassThrough => "null"
  }

  /** The fade-out start is `duration - 0.8` written out: every integer
      duration other than 1 gives a text that reads back as 10 * duration
      - 8 tenths, and 1 gives the double nearest 0.2 as JavaScript prints
      it. */
  lemma FadeOutStartSpec(d: int)
    ensures d != 1 ==> Tenths(FadeOutStart(d)) == Some(10 * d - 8)
  {
    if d >= 2 {
      FadeOutStartAbove(d);
    } else if d <= 0 {
      FadeOutStartBelow(d);
    }
  }

  lemma FadeOutStartAbove(d: int)
    requires d >= 2
    ensures Tenths(FadeOutStart(d)) == Some(10 * d - 8)
  {
    var n: nat := d - 1;
    FadeOutStartText(d, n);
    DecimalTenths(n, '2');
  }

  lemma FadeOutStartBelow(d: int)
    requires d <= 0
    ensures Tenths(FadeOutStart(d)) == Some(10 * d - 8)
  {
    var n: nat := -d;
    FadeOutStartText(d, n);
    NegativeTenths(n, '8');
  }

  /** The text of the fade-out start, as a natural number and a digit. */
  lemma FadeOutStartText(d: int, n: nat)
    requires (d >= 2 && n == d - 1) || (d <= 0 && n == -d)
    ensures d >= 2 ==> FadeOutStart(d) == IntToString(n) + "." + ['2']
    ensures d <= 0 ==> FadeOutStart(d) == "-" + (IntToString(n) + "." + ['8'])
  {
    if d >= 2 {
      assert FadeOutStart(d) == IntToString(n) + ".2";
    } else {
      assert FadeOutStart(d) == "-" + IntToString(n) + ".8";
    }
  }

  /** The default duration 8 starts the fade-out at `7.2` and 0 at `-0.8`;
      1 gives the double nearest 0.2 as JavaScript prints it. */
  lemma FadeOutStartExamples()
    ensures FadeOutStart(8) == "7.2" && FadeOutStart(0) == "-0.8"
    ensures FadeOutStart(1) == "0.19999999999999996"
  {
    assert NatToString(7) == "7" && NatToString(0) == "0";
  }

  /** `n.c` for a natural n and a digit c reads as 10 * n + c tenths. */
  lemma DecimalTenths(n: nat, c: char)
    requires IsDigit(c)
    ensures Tenths(IntToString(n) + "." + [c]) == Some(10 * n + (c as int - '0' as int))
  {
    var a := IntToString(n);
    var s := a + "." + [c];
    assert '.' !in a by {
      forall i | 0 <= i < |a| ensures a[i] != '.' {
        assert IsDigit(a[i]);
      }
    }
    assert s == a + ['.'] + [c];
    SplitAppend(a, '.', [c]);
    SplitNoSep(a, '.');
    assert Split(s, '.') == [a, [c]];
    assert s[0] != '-';
  }

  /** With a minus sign in front, `n.c` reads as the negation. */
  lemma NegativeTenths(n: nat, c: char)
    requires IsDigit(c)
    ensures Tenths("-" + (IntToString(n) + "." + [c])) == Some(-(10 * n + (c as int - '0' as int)))
  {
    var s := IntToString(n) + "." + [c];
    DecimalTenths(n, c);
    assert ("-" + s)[1..] == s;
  }

  /** With no images: the colour source scaled and trimmed to `[v0]`. */
  function Background(o: RenderOpts): Filter<Chain> {
    Filter([InputVideo(0)], ColourFit(o.width, o.height, o.duration), Slide(0))
  }

  /** Image i fitted into the frame and trimmed, to `[v{i}]`. */
  function SlideFilter(o: RenderOpts, i: nat): Filter<Chain>
    requires |o.images| > 0
  {
    Filter([InputVideo(i)], FitImage(o.width, o.height, SlideSeconds(o.duration, |o.images|)), Slide(i))
  }

  /** Image i zooming in slowly, to `[kb{i}]`; it reads the raw input. */
  function ZoomFilter(o: RenderOpts, i: nat): Filter<Chain>
    requires |o.images| > 0
  {
    Filter([InputVideo(i)], ZoomIn(ZoomFrames(o.duration, |o.images|), o.width, o.height), Zoom(i))
  }

  function Slides(o: RenderOpts): nat -> Filter<Chain>
    requires |o.images| > 0
  {
    (i: nat) => SlideFilter(o, i)
  }

  function Zooms(o: RenderOpts): nat -> Filter<Chain>
    requires |o.images| > 0
  {
    (i: nat) => ZoomFilter(o, i)
  }

  /** The statements before the concatenation. */
  function Stage(o: RenderOpts): seq<Filter<Chain>> {
    if |o.images| == 0 then [Background(o)]
    else PerImage(|o.images|, o.kenburns, Slides(o), Zooms(o))
  }

  /** The streams that go to the concatenation. */
  function Labels(o: RenderOpts): seq<Label> {
    if |o.images| == 0 then [Slide(0)] else Streams(|o.images|, o.kenburns)
  }

  /** One stream is only converted; several are concatenated. */
  function ConcatFilter(labels: seq<Label>): Filter<Chain> {
    if |labels| == 1 then Filter(labels, ToYuv, Concat)
    else Filter(labels, ConcatAll(|labels|), Concat)
  }

  function FadeFilter(o: RenderOpts): Filter<Chain> {
    Filter([Concat], if o.fade then FadeInOut(o.duration) else ToYuv, Faded)
  }

  /** `textOverlay && textOverlay.trim()`. */
  predicate HasOverlay(o: RenderOpts) {
    o.textOverlay.Some? && Trim(o.textOverlay.value) != ""
  }

  function TextFilter(o: RenderOpts): Filter<Chain> {
    Filter([Faded], if HasOverlay(o) then Caption(o.fontFile, o.textOverlay, o.width) else PassThrough, Out)
  }

  /** The whole filter list, in the order it is pushed. */
  function Filters(o: RenderOpts): seq<Filter<Chain>> {
    Stage(o) + [ConcatFilter(Labels(o)), FadeFilter(o), TextFilter(o)]
  }

  /** The statements as text. */
  function FilterTexts(o: RenderOpts): seq<string> {
    ShowAll(Filters(o), ShowChain)
  }

  /** The stream maps: the graph's `[vout]` and the audio input. */
  function Maps(o: RenderOpts): seq<string> {
    ["-map [vout]", "-map " + IntToString(AudioIndex(|o.images|)) + ":a"]
  }

  // ---------------------------------------------------------------------------
  // Properties of the graph
  // ---------------------------------------------------------------------------

  lemma RenderShape(o: RenderOpts)
    requires |o.images| > 0
    ensures StageShape(Slides(o), Zooms(o), |o.images|)
  {
  }

  /** The stage's length: one statement without images, otherwise one or
      two per image. */
  lemma StageLength(o: RenderOpts)
    ensures |Stage(o)| == if |o.images| == 0 then 1 else Stride(o.kenburns) * |o.images|
  {
    if |o.images| > 0 {
      PerImageAt(|o.images|, o.kenburns, Slides(o), Zooms(o));
    }
  }

  /** There is one stream per image, or the single `[v0]` without images;
      with Ken Burns the streams are the zoompan outputs. */
  lemma LabelsSpec(o: RenderOpts)
    ensures |Labels(o)| == Max(1, |o.images|)
    ensures |o.images| == 0 ==> Labels(o) == [Slide(0)]
    ensures forall i :: 0 <= i < |o.images| ==> Labels(o)[i] == (if o.kenburns then Zoom(i) else Slide(i))
  {
  }

  /** Without images the graph is the background statement and three
      more; there is no concatenation, only a format conversion of `[v0]`. */
  lemma NoImages(o: RenderOpts)
    requires |o.images| == 0
    ensures var fs := Filters(o);
      && |fs| == 4
      && fs[0] == Filter([InputVideo(0)], ColourFit(o.width, o.height, o.duration), Slide(0))
      && fs[1] == Filter([Slide(0)], ToYuv, Concat)
      && forall k :: 0 <= k < |fs| ==> !fs[k].chain.ConcatAll?
  {
  }

  /** With images, image i has its scale, pad and trim statement, trimmed
      to `SlideSeconds`, and with Ken Burns its zoompan statement, both
      reading input i. */
  lemma ImageStatements(o: RenderOpts, i: nat)
    requires i < |o.images|
    ensures var fs := Filters(o);
      && Stride(o.kenburns) * i < |fs| && fs[Stride(o.kenburns) * i] == SlideFilter(o, i)
      && (o.kenburns ==> 2 * i + 1 < |fs| && fs[2 * i + 1] == ZoomFilter(o, i))
  {
    var n := |o.images|;
    PerImageAt(n, o.kenburns, Slides(o), Zooms(o));
    PositionsOf(i, o.kenburns);
    var st := Stage(o);
    assert Filters(o)[Stride(o.kenburns) * i] == st[Stride(o.kenburns) * i];
    if o.kenburns {
      assert Filters(o)[2 * i + 1] == st[2 * i + 1];
    }
  }

  /** After the stage come exactly the conversion or concatenation of all
      streams to `[vconcat]`, the fade or format step to `[vf]`, and the
      last step to `[vout]`: drawtext of the wrapped, escaped overlay when
      the overlay has visible text, else `null`. */
  lemma Tail(o: RenderOpts)
    ensures var fs := Filters(o);
      var m := |Stage(o)|;
      && |fs| == m + 3
      && fs[m].ins == Labels(o) && fs[m].out == Concat
      && (fs[m].chain == ToYuv <==> |Labels(o)| == 1)
      && (fs[m].chain != ToYuv ==> fs[m].chain == ConcatAll(|Labels(o)|))
      && fs[m + 1].ins == [Concat] && fs[m + 1].out == Faded
      && (fs[m + 1].chain == ToYuv <==> !o.fade)
      && (o.fade ==> fs[m + 1].chain == FadeInOut(o.duration))
      && fs[m + 2].ins == [Faded] && fs[m + 2].out == Out
      && (fs[m + 2].chain == PassThrough <==> !HasOverlay(o))
      && (HasOverlay(o) ==> fs[m + 2].chain == Caption(o.fontFile, o.textOverlay, o.width))
  {
  }

  /** Every statement of the stage reads the video of an image (or of
      the colour source) and writes a `[v{i}]` or `[kb{i}]`. */
  lemma StageOut(o: RenderOpts, k: nat)
    requires k < |Stage(o)|
    ensures var f := Stage(o)[k];
      && |f.ins| == 1 && f.ins[0].InputVideo? && f.ins[0].index < Max(1, |o.images|)
      && (f.out.Slide? || f.out.Zoom?)
      && (f.out.Zoom? ==> o.kenburns && f.out.index < |o.images|)
      && (f.out.Slide? ==> f.out.index < Max(1, |o.images|))
  {
    if |o.images| > 0 {
      RenderShape(o);
      PerImageOut(|o.images|, o.kenburns, Slides(o), Zooms(o), k);
    }
  }

  /** What statement k of the graph reads and writes. */
  lemma FilterAt(o: RenderOpts, k: nat)
    requires k < |Filters(o)|
    ensures var f := Filters(o)[k];
      var m := |Stage(o)|;
      && k <= m + 2
      && (k < m ==> f == Stage(o)[k])
      && (k < m ==>
            && |f.ins| == 1 && f.ins[0].InputVideo? && f.ins[0].index < Max(1, |o.images|)
            && (f.out.Slide? || f.out.Zoom?))
      && (k == m ==> f.ins == Labels(o) && f.out == Concat)
      && (k == m + 1 ==> f.ins == [Concat] && f.out == Faded)
      && (k == m + 2 ==> f.ins == [Faded] && f.out == Out)
  {
    Tail(o);
    if k < |Stage(o)| {
      StageOut(o, k);
    }
  }

  /** Each stream the concatenation reads is written by the stage. */
  lemma StreamsProduced(o: RenderOpts, l: Label)
    requires l in Labels(o)
    ensures ProducedBefore(Filters(o), |Stage(o)|, l)
  {
    var fs := Filters(o);
    StageLength(o);
    if |o.images| == 0 {
      assert fs[0].out == l;
    } else {
      var i :| 0 <= i < |Labels(o)| && Labels(o)[i] == l;
      RenderShape(o);
      PerImageProduces(|o.images|, o.kenburns, Slides(o), Zooms(o), i);
      var p := if o.kenburns then 2 * i + 1 else i;
      assert fs[p] == Stage(o)[p];
    }
  }

  /** The graph is well formed: every label read is an image's (or the
      colour source's) video or was written by an earlier statement, so
      the audio input is never read as video. */
  lemma RenderWired(o: RenderOpts)
    ensures Wired(Filters(o), AudioIndex(|o.images|))
  {
    var fs := Filters(o);
    var m := |Stage(o)|;
    forall k, l | 0 <= k < |fs| && l in fs[k].ins
      ensures (l.InputVideo? && l.index < AudioIndex(|o.images|)) || ProducedBefore(fs, k, l)
    {
      FilterAt(o, k);
      if k == m {
        StreamsProduced(o, l);
      } else if k > m {
        FilterAt(o, k - 1);
        assert fs[k - 1].out == l;
      }
    }
  }

  /** No label is written twice; so `[vconcat]`, `[vf]` and `[vout]` each
      come from exactly one statement. */
  lemma RenderSingle(o: RenderOpts)
    ensures SingleAssignment(Filters(o))
  {
    var fs := Filters(o);
    var m := |Stage(o)|;
    if |o.images| > 0 {
      RenderShape(o);
      PerImageSingle(|o.images|, o.kenburns, Slides(o), Zooms(o));
    }
    forall a, b | 0 <= a < b < |fs| ensures fs[a].out != fs[b].out {
      FilterAt(o, a);
      FilterAt(o, b);
    }
  }

  /** With Ken Burns the scaled and trimmed `[v{i}]` streams are written
      but nothing reads them: zoompan works on the raw inputs. */
  lemma KenBurnsSkipsSlides(o: RenderOpts, i: nat)
    requires o.kenburns && i < |o.images|
    ensures !Consumed(Filters(o), Slide(i))
  {
    var fs := Filters(o);
    LabelsSpec(o);
    forall k | 0 <= k < |fs| ensures Slide(i) !in fs[k].ins {
      FilterAt(o, k);
    }
  }

  /** `[vout]` is written by the last statement and read by none: it is
      the graph's one output, the one the first map sends to the file. */
  lemma OutIsSink(o: RenderOpts)
    ensures Filters(o)[|Filters(o)| - 1].out == Out
    ensures !Consumed(Filters(o), Out)
  {
    var fs := Filters(o);
    LabelsSpec(o);
    FilterAt(o, |fs| - 1);
    forall k | 0 <= k < |fs| ensures Out !in fs[k].ins {
      FilterAt(o, k);
    }
  }

  /** The first map sends `[vout]` to the file; the second takes the
      audio of the last input, which is the audio source. */
  lemma MapsOut(o: RenderOpts)
    ensures Maps(o)[0] == "-map " + ShowLabel(Out)
    ensures Maps(o)[1] == "-map " + IntToString(|Inputs(o)| - 1) + ":a"
    ensures Inputs(o)[|Inputs(o)| - 1] == AudioInput(o)
  {
  }

  /** The overlay drawn is the wrapped overlay with its drawtext special
      characters escaped: undoing the escapes gives the wrapped text,
      which holds no newline character. */
  lemma OverlaySpec(overlay: Option<string>, width: int)
    ensures Unescape(OverlayText(overlay, width)) == WrapText(overlay, Max(20, width / 22))
    ensures '\n' !in Unescape(OverlayText(overlay, width))
  {
    var wrapped := WrapText(overlay, Max(20, width / 22));
    SanitizeSpec(wrapped);
    WrapTextNoNewline(overlay, Max(20, width / 22));
  }
}

=== FILE: strings.dfy ===
/** The few JavaScript string primitives the media pipeline relies on:
    white space as `\s` and `trim` see it, `split` on one character,
    `join`, integer printing and `parseInt(s, 10)`. */
module Strings {
  import opened Basics

  /** JavaScript white space and line terminators: the class matched by `\s`
      and stripped by `String.prototype.trim`. */
  predicate IsSpace(c: char) {
    || c == '\t' || c == '\n' || c == '\U{000B}' || c == '\U{000C}' || c == '\r'
    || c == ' ' || c == '\U{00A0}' || c == '\U{1680}'
    || ('\U{2000}' <= c <= '\U{200A}')
    || c == '\U{2028}' || c == '\U{2029}' || c == '\U{202F}' || c == '\U{205F}'
    || c == '\U{3000}' || c == '\U{FEFF}'
  }

  predicate IsDigit(c: char) { '0' <= c <= '9' }

  /** `s` has no white space at either end. */
  predicate Trimmed(s: string) {
    s == [] || (!IsSpace(s[0]) && !IsSpace(s[|s| - 1]))
  }

  /** `trimStart`: the suffix left after dropping leading white space. */
  function TrimStart(s: string): (r: string)
    ensures |r| <= |s| && r == s[|s| - |r|..]
    ensures r == [] || !IsSpace(r[0])
    ensures forall i :: 0 <= i < |s| - |r| ==> IsSpace(s[i])
  {
    if |s| > 0 && IsSpace(s[0]) then TrimStart(s[1..]) else s
  }

  /** `trimEnd`: the prefix left after dropping trailing white space. */
  function TrimEnd(s: string): (r: string)
    ensures |r| <= |s| && r == s[..|r|]
    ensures r == [] || !IsSpace(r[|r| - 1])
    ensures forall i :: |r| <= i < |s| ==> IsSpace(s[i])
  {
    if |s| > 0 && IsSpace(s[|s| - 1]) then TrimEnd(s[..|s| - 1]) else s
  }

  /** `String.prototype.trim`. */
  function Trim(s: string): string {
    TrimEnd(TrimStart(s))
  }

  /** Trimming keeps exactly the strings that have no white space at
      either end, and its result always is such a string. */
  lemma TrimFixesTrimmed(s: string)
    ensures Trimmed(Trim(s))
    ensures Trim(s) == s <==> Trimmed(s)
  {
    var t := TrimStart(s);
    if Trimmed(s) && s != [] {
      assert t == s;
    }
  }

  /** The characters of `s` that are not white space, in order. */
  function NonSpace(s: string): string {
    if s == [] then [] else (if IsSpace(s[0]) then [] else [s[0]]) + NonSpace(s[1..])
  }

  lemma {:induction false} NonSpaceAppend(a: string, b: string)
    ensures NonSpace(a + b) == NonSpace(a) + NonSpace(b)
  {
    if a == [] {
      assert a + b == b;
    } else {
      assert (a + b)[1..] == a[1..] + b;
      NonSpaceAppend(a[1..], b);
    }
  }

  lemma {:induction false} NonSpaceOfSpaces(s: string)
    requires forall i :: 0 <= i < |s| ==> IsSpace(s[i])
    ensures NonSpace(s) == []
  {
    if s != [] {
      NonSpaceOfSpaces(s[1..]);
    }
  }

  /** Trimming only ever removes white space. */
  lemma TrimKeepsNonSpace(s: string)
    ensures NonSpace(Trim(s)) == NonSpace(s)
  {
    TrimStartKeepsNonSpace(s);
    TrimEndKeepsNonSpace(TrimStart(s));
  }

  lemma TrimStartKeepsNonSpace(s: string)
    ensures NonSpace(TrimStart(s)) == NonSpace(s)
  {
    var t := TrimStart(s);
    var k := |s| - |t|;
    assert s == s[..k] + t;
    NonSpaceAppend(s[..k], t);
    NonSpaceOfSpaces(s[..k]);
  }

  lemma TrimEndKeepsNonSpace(s: string)
    ensures NonSpace(TrimEnd(s)) == NonSpace(s)
  {
    var r := TrimEnd(s);
    assert s == r + s[|r|..];
    NonSpaceAppend(r, s[|r|..]);
    NonSpaceOfSpaces(s[|r|..]);
  }

  /** Concatenation of a sequence of strings. */
  function Flatten(ss: seq<string>): string {
    if ss == [] then [] else ss[0] + Flatten(ss[1..])
  }

  lemma {:induction false} FlattenAppend(a: seq<string>, b: seq<string>)
    ensures Flatten(a + b) == Flatten(a) + Flatten(b)
  {
    if a == [] {
      assert a + b == b;
    } else {
      assert (a + b)[1..] == a[1..] + b;
      FlattenAppend(a[1..], b);
    }
  }

  /** `s` with every occurrence of `c` removed. */
  function Remove(s: string, c: char): string {
    if s == [] then [] else (if s[0] == c then [] else [s[0]]) + Remove(s[1..], c)
  }

  /** `Array.prototype.join(sep)`. */
  function Join(parts: seq<string>, sep: string): string {
    if |parts| == 0 then ""
    else if |parts| == 1 then parts[0]
    else Join(parts[..|parts| - 1], sep) + sep + parts[|parts| - 1]
  }

  /** `String.prototype.split(sep)` for a one-character separator: the
      pieces between separators, including empty ones. */
  function Split(s: string, sep: char): (parts: seq<string>)
    ensures |parts| >= 1
    ensures forall i :: 0 <= i < |parts| ==> sep !in parts[i]
  {
    if |s| == 0 then [""]
    else
      var rest := Split(s[1..], sep);
      if s[0] == sep then [""] + rest
      else [[s[0]] + rest[0]] + rest[1..]
  }

  /** Splitting after appending one more separated piece adds that piece. */
  lemma {:induction false} SplitAppend(x: string, c: char, w: string)
    requires c !in w
    ensures Split(x + [c] + w, c) == Split(x, c) + [w]
  {
    if x == [] {
      assert x + [c] + w == [c] + w;
      SplitNoSep(w, c);
    } else {
      assert (x + [c] + w)[1..] == x[1..] + [c] + w;
      SplitAppend(x[1..], c, w);
    }
  }

  lemma {:induction false} SplitNoSep(w: string, c: char)
    requires c !in w
    ensures Split(w, c) == [w]
  {
    if w != [] {
      SplitNoSep(w[1..], c);
      assert [w[0]] + w[1..] == w;
    }
  }

  /** `split` undoes `join` when no piece contains the separator. */
  lemma {:induction false} SplitJoin(ps: seq<string>, c: char)
    requires |ps| >= 1
    requires forall i :: 0 <= i < |ps| ==> c !in ps[i]
    ensures Split(Join(ps, [c]), c) == ps
  {
    if |ps| == 1 {
      SplitNoSep(ps[0], c);
    } else {
      var init := ps[..|ps| - 1];
      SplitJoin(init, c);
      SplitAppend(Join(init, [c]), c, ps[|ps| - 1]);
      assert init + [ps[|ps| - 1]] == ps;
    }
  }

  /** The pieces of a split, put back together, are the string without its
      separators: splitting drops nothing else and reorders nothing. */
  lemma {:induction false} FlattenSplit(s: string, c: char)
    ensures Flatten(Split(s, c)) == Remove(s, c)
  {
    if s != [] {
      FlattenSplit(s[1..], c);
      var rest := Split(s[1..], c);
      if s[0] == c {
        assert ([""] + rest)[1..] == rest;
      } else {
        var parts := [[s[0]] + rest[0]] + rest[1..];
        assert parts[1..] == rest[1..];
        assert Flatten(rest) == rest[0] + Flatten(rest[1..]);
      }
    }
  }

  /** No two consecutive characters of `s` are both `c`. */
  predicate NoDoubleSep(s: string, c: char) {
    forall i :: 1 <= i < |s| ==> s[i - 1] != c || s[i] != c
  }

  /** Splitting a string that has no separator at either end and no two
      separators in a row yields only non-empty pieces. */
  lemma {:induction false} SplitPiecesNonEmpty(s: string, c: char)
    requires s != [] && s[0] != c && s[|s| - 1] != c
    requires NoDoubleSep(s, c)
    ensures forall i :: 0 <= i < |Split(s, c)| ==> Split(s, c)[i] != []
  {
    var t := s[1..];
    var rest := Split(t, c);
    if t != [] {
      if t[0] == c {
        var u := t[1..];
        assert u != [] && u[0] != c;
        assert u[|u| - 1] == s[|s| - 1];
        SplitPiecesNonEmpty(u, c);
        assert rest == [""] + Split(u, c);
        assert rest[1..] == Split(u, c);
      } else {
        SplitPiecesNonEmpty(t, c);
      }
    }
  }

  /** Every character of every piece is a character of the input other than
      the separator; so a property of all of the input's other characters
      holds of every piece. */
  lemma {:induction false} SplitPiecesKeep(s: string, c: char, p: char -> bool)
    requires forall i :: 0 <= i < |s| ==> s[i] == c || p(s[i])
    ensures forall i, k :: 0 <= i < |Split(s, c)| && 0 <= k < |Split(s, c)[i]| ==> p(Split(s, c)[i][k])
  {
    if s != [] {
      SplitPiecesKeep(s[1..], c, p);
    }
  }

  /** `s` consists of decimal digits only. */
  predicate AllDigits(s: string) {
    forall i :: 0 <= i < |s| ==> IsDigit(s[i])
  }

  /** The value of a string of decimal digits. */
  function DigitsValue(s: string): nat
    requires AllDigits(s)
  {
    if s == [] then 0 else DigitsValue(s[..|s| - 1]) * 10 + (s[|s| - 1] as int - '0' as int)
  }

  /** Decimal text of a natural number, without leading zeros. */
  function NatToString(n: nat): (r: string)
    ensures r != [] && AllDigits(r)
    ensures DigitsValue(r) == n
    ensures |r| > 1 ==> r[0] != '0'
  {
    var d := ['0' + ((n % 10) as char)];
    if n < 10 then d
    else
      var r := NatToString(n / 10) + d;
      assert r[..|r| - 1] == NatToString(n / 10);
      r
  }

  /** Decimal text of an integer, as JavaScript prints it: a minus sign
      for negative values. */
  function IntToString(n: int): (r: string)
    ensures r != [] && (r[0] == '-' <==> n < 0)
    ensures n < 0 ==> AllDigits(r[1..])
    ensures n >= 0 ==> AllDigits(r)
  {
    if n < 0 then "-" + NatToString(-n) else NatToString(n)
  }

  /** `String(x)` of an integer-valued number, NaN given as `None`. */
  function NumberText(x: Option<int>): string {
    if x.None? then "NaN" else IntToString(x.value)
  }

  /** The longest prefix of `s` made of decimal digits. */
  function DigitPrefix(s: string): (r: string)
    ensures AllDigits(r) && |r| <= |s| && r == s[..|r|]
    ensures |r| < |s| ==> !IsDigit(s[|r|])
  {
    if s != [] && IsDigit(s[0]) then [s[0]] + DigitPrefix(s[1..]) else []
  }

  /** `parseInt(s, 10)`: leading white space, an optional sign, then the
      longest run of digits; `None` (JavaScript's NaN) when there is no
      digit. Precision loss of very long digit strings is not modelled. */
  function ParseInt(s: string): Option<int> {
    var t := TrimStart(s);
    var signed := |t| > 0 && (t[0] == '-' || t[0] == '+');
    var body := if signed then t[1..] else t;
    var ds := DigitPrefix(body);
    if ds == [] then None
    else
      var v: int := DigitsValue(ds);
      if signed && t[0] == '-' then Some(-v) else Some(v)
  }

  lemma DigitPrefixOfDigits(s: string)
    requires AllDigits(s)
    ensures DigitPrefix(s) == s
  {
  }

  /** Printing an integer and parsing it back gives the same integer. */
  lemma ParseIntRoundTrip(n: int)
    ensures ParseInt(IntToString(n)) == Some(n)
  {
    var r := IntToString(n);
    var m: nat := if n < 0 then -n else n;
    var body := if n < 0 then r[1..] else r;
    assert body == NatToString(m);
    assert !IsSpace(r[0]);
    assert TrimStart(r) == r;
    assert (r[0] == '-' || r[0] == '+') <==> n < 0;
    DigitPrefixOfDigits(body);
  }
}

=== FILE: text.dfy ===
/** utils/text.js: the greedy word wrapper used for overlay text and the
    escaper that makes text embeddable in a drawtext filter option. */
module Text {
  import opened Basics
  import opened Strings

  // ---------------------------------------------------------------------------
  // Word splitting: `text.replace(/\s+/g, " ").trim().split(" ")`
  // ---------------------------------------------------------------------------

  /** Every white-space character of `s` is a plain space. */
  predicate OnlyPlainSpaces(s: string) {
    forall i :: 0 <= i < |s| ==> s[i] == ' ' || !IsSpace(s[i])
  }

  /** A word: non-empty and free of white space. */
  predicate IsWord(w: string) {
    w != [] && forall i :: 0 <= i < |w| ==> !IsSpace(w[i])
  }

  /** Every element of `ws` is a word. */
  predicate AllWords(ws: seq<string>) {
    forall i :: 0 <= i < |ws| ==> IsWord(ws[i])
  }

  /** `s.replace(/\s+/g, " ")`: each maximal run of white space becomes a
      single plain space. */
  function CollapseSpace(s: string): (r: string)
    ensures OnlyPlainSpaces(r)
    ensures NoDoubleSep(r, ' ')
    ensures NonSpace(r) == NonSpace(s)
    ensures (r != [] && r[0] == ' ') <==> (s != [] && IsSpace(s[0]))
  {
    if s == [] then []
    else if IsSpace(s[0]) then
      var t := TrimStart(s);
      var k := |s| - |t|;
      assert s == s[..k] + t;
      NonSpaceAppend(s[..k], t);
      NonSpaceOfSpaces(s[..k]);
      PrependShape(' ', CollapseSpace(t));
      " " + CollapseSpace(t)
    else
      assert s == [s[0]] + s[1..];
      NonSpaceAppend([s[0]], s[1..]);
      PrependShape(s[0], CollapseSpace(s[1..]));
      [s[0]] + CollapseSpace(s[1..])
  }

  /** A plain space or a visible character in front of a collapsed
      string keeps it collapsed, unless two spaces meet. */
  lemma PrependShape(c: char, r: string)
    requires c == ' ' || !IsSpace(c)
    requires OnlyPlainSpaces(r) && NoDoubleSep(r, ' ')
    requires c == ' ' ==> r == [] || r[0] != ' '
    ensures OnlyPlainSpaces([c] + r) && NoDoubleSep([c] + r, ' ')
  {
    var x := [c] + r;
    forall i | 1 <= i < |x| ensures x[i] == ' ' || !IsSpace(x[i]) {
      assert x[i] == r[i - 1];
    }
    forall i | 2 <= i < |x| ensures x[i - 1] != ' ' || x[i] != ' ' {
      assert x[i - 1] == r[i - 2] && x[i] == r[i - 1];
    }
  }

  /** The words the wrapper iterates over, exactly as the source computes
      them: collapse, trim, split on a space. */
  function JsWords(s: string): seq<string> {
    Split(Trim(CollapseSpace(s)), ' ')
  }

  lemma TrimStartKeepsShape(x: string)
    requires OnlyPlainSpaces(x) && NoDoubleSep(x, ' ')
    ensures OnlyPlainSpaces(TrimStart(x)) && NoDoubleSep(TrimStart(x), ' ')
  {
    var t := TrimStart(x);
    SuffixKeepsShape(x, |x| - |t|);
  }

  lemma SuffixKeepsShape(x: string, k: nat)
    requires k <= |x| && OnlyPlainSpaces(x) && NoDoubleSep(x, ' ')
    ensures OnlyPlainSpaces(x[k..]) && NoDoubleSep(x[k..], ' ')
  {
    var t := x[k..];
    forall i | 0 <= i < |t| ensures t[i] == ' ' || !IsSpace(t[i]) {
      assert t[i] == x[k + i];
    }
    forall i | 1 <= i < |t| ensures t[i - 1] != ' ' || t[i] != ' ' {
      assert t[i - 1] == x[k + i - 1] && t[i] == x[k + i];
    }
  }

  lemma TrimEndKeepsShape(x: string)
    requires OnlyPlainSpaces(x) && NoDoubleSep(x, ' ')
    ensures OnlyPlainSpaces(TrimEnd(x)) && NoDoubleSep(TrimEnd(x), ' ')
  {
  }

  lemma RemoveSpaceIsNonSpace(x: string)
    requires OnlyPlainSpaces(x)
    ensures Remove(x, ' ') == NonSpace(x)
  {
  }

  /** The collapsed and trimmed text: plain single spaces between visible
      characters, none at either end, and the same visible characters. */
  lemma NormalShape(s: string)
    ensures var x := Trim(CollapseSpace(s));
      && OnlyPlainSpaces(x) && NoDoubleSep(x, ' ') && Trimmed(x)
      && NonSpace(x) == NonSpace(s)
  {
    var c := CollapseSpace(s);
    TrimStartKeepsShape(c);
    TrimEndKeepsShape(TrimStart(c));
    TrimFixesTrimmed(c);
    TrimKeepsNonSpace(c);
  }

  /** The normalised words together hold exactly the input's visible
      characters, in order: nothing is dropped or reordered. */
  lemma JsWordsFlatten(s: string)
    ensures Flatten(JsWords(s)) == NonSpace(s)
  {
    var x := Trim(CollapseSpace(s));
    NormalShape(s);
    RemoveSpaceIsNonSpace(x);
    FlattenSplit(x, ' ');
  }

  /** Unless the input is blank, every normalised word is a genuine word. */
  lemma JsWordsAreWords(s: string)
    requires JsWords(s) != [""]
    ensures AllWords(JsWords(s))
  {
    var x := Trim(CollapseSpace(s));
    NormalShape(s);
    SplitPiecesNonEmpty(x, ' ');
    SplitPiecesKeep(x, ' ', ch => !IsSpace(ch));
  }

  /** The input is blank exactly when the words are the single empty
      string. */
  lemma JsWordsBlank(s: string)
    ensures NonSpace(s) == [] <==> JsWords(s) == [""]
  {
    var x := Trim(CollapseSpace(s));
    NormalShape(s);
    if x != [] {
      SplitPiecesNonEmpty(x, ' ');
      assert Split(x, ' ')[0] != [];
      NonSpaceFirst(x);
    }
  }

  /** The normalised words are either the single empty string (the input
      holds no visible character) or genuine words; and together they hold
      exactly the input's visible characters, in order. */
  lemma JsWordsShape(s: string)
    ensures NonSpace(s) == [] <==> JsWords(s) == [""]
    ensures JsWords(s) != [""] ==> AllWords(JsWords(s))
    ensures Flatten(JsWords(s)) == NonSpace(s)
  {
    JsWordsFlatten(s);
    JsWordsBlank(s);
    if JsWords(s) != [""] {
      JsWordsAreWords(s);
    }
  }

  lemma NonSpaceFirst(x: string)
    requires x != [] && !IsSpace(x[0])
    ensures NonSpace(x) != []
  {
  }

  // ---------------------------------------------------------------------------
  // Greedy wrapping (`wrapText`)
  // ---------------------------------------------------------------------------

  /** Lines are joined with the two characters backslash and `n`, which the
      drawtext filter reads as a line break; no newline character is used. */
  const LineBreak: string := "\\n"

  /** The loop state of `wrapText`: finished lines and the line being filled. */
  datatype WrapState = WrapState(lines: seq<string>, cur: string)

  /** One pass of the loop body for word `w`. */
  function WrapStep(st: WrapState, w: string, maxChars: int): WrapState {
    var joined := Trim(st.cur + " " + w);
    if |joined| <= maxChars then WrapState(st.lines, joined)
    else WrapState(if st.cur != "" then st.lines + [st.cur] else st.lines, w)
  }

  /** The loop over all remaining words. */
  function WrapLoop(st: WrapState, ws: seq<string>, maxChars: int): WrapState
    decreases |ws|
  {
    if ws == [] then st else WrapLoop(WrapStep(st, ws[0], maxChars), ws[1..], maxChars)
  }

  /** The lines `wrapText` produces for a list of words. */
  function WrapLines(ws: seq<string>, maxChars: int): seq<string> {
    var st := WrapLoop(WrapState([], ""), ws, maxChars);
    if st.cur != "" then st.lines + [st.cur] else st.lines
  }

  /** `wrapText(text, maxChars)`; `None` is a null or undefined argument. */
  function WrapText(text: Option<string>, maxChars: int): string {
    if text.None? || text.value == "" then ""
    else Join(WrapLines(JsWords(text.value), maxChars), LineBreak)
  }

  /** The words of a list of lines, reading each line's space-separated
      pieces in order. */
  function WordsOf(lines: seq<string>): seq<string> {
    if lines == [] then [] else WordsOf(lines[..|lines| - 1]) + Split(lines[|lines| - 1], ' ')
  }

  /** A line respects the width unless it is one word too long to fit. */
  predicate Fits(line: string, maxChars: int) {
    |line| <= maxChars || ' ' !in line
  }

  /** The first space-separated piece of a line. */
  function FirstWord(line: string): string {
    Split(line, ' ')[0]
  }

  /** Line `i - 1` has no room left for the first word of line `i`. */
  predicate NoRoomAt(lines: seq<string>, i: int, maxChars: int)
    requires 1 <= i < |lines|
  {
    |lines[i - 1]| + 1 + |FirstWord(lines[i])| > maxChars
  }

  /** Greedy: no line could have taken the first word of the next one. */
  predicate Greedy(lines: seq<string>, maxChars: int) {
    forall i :: 1 <= i < |lines| ==> NoRoomAt(lines, i, maxChars)
  }

  /** What every produced line satisfies. */
  predicate GoodLine(line: string, maxChars: int) {
    line != [] && Trimmed(line) && OnlyPlainSpaces(line) && Fits(line, maxChars)
  }

  /** Loop invariant of `wrapText` after the words `done`. */
  ghost predicate WrapInv(st: WrapState, done: seq<string>, maxChars: int) {
    && (done == [] ==> st.lines == [] && st.cur == "")
    && (done != [] ==> WrapOn(st, done, maxChars))
  }

  /** The invariant once at least one word has been read. */
  ghost predicate WrapOn(st: WrapState, done: seq<string>, maxChars: int) {
    && WordsOf(st.lines + [st.cur]) == done
    && AllGood(st.lines + [st.cur], maxChars)
    && Greedy(st.lines + [st.cur], maxChars)
  }

  predicate AllGood(lines: seq<string>, maxChars: int) {
    forall i :: 0 <= i < |lines| ==> GoodLine(lines[i], maxChars)
  }

  lemma TrimSpaceWord(w: string)
    requires IsWord(w)
    ensures Trim("" + " " + w) == w
  {
    assert ("" + " " + w)[1..] == w;
    assert TrimStart("" + " " + w) == TrimStart(w) == w;
  }

  lemma WordsOfSnoc(lines: seq<string>, l: string)
    ensures WordsOf(lines + [l]) == WordsOf(lines) + Split(l, ' ')
  {
    assert (lines + [l])[..|lines|] == lines;
  }

  /** Replacing the last line by one with the same first word keeps the
      lines greedy. */
  lemma GreedyReplaceLast(ls: seq<string>, a: string, b: string, m: int)
    requires Greedy(ls + [a], m)
    requires FirstWord(a) == FirstWord(b)
    ensures Greedy(ls + [b], m)
  {
    var x, y := ls + [a], ls + [b];
    forall i | 1 <= i < |y| ensures NoRoomAt(y, i, m) {
      assert NoRoomAt(x, i, m);
      assert y[i - 1] == x[i - 1];
      if i < |y| - 1 {
        assert y[i] == x[i];
      }
    }
  }

  /** Appending a line whose first word did not fit on the last line keeps
      the lines greedy. */
  lemma GreedySnoc(ls: seq<string>, b: string, m: int)
    requires Greedy(ls, m) && ls != []
    requires |ls[|ls| - 1]| + 1 + |FirstWord(b)| > m
    ensures Greedy(ls + [b], m)
  {
    var y := ls + [b];
    forall i | 1 <= i < |y| ensures NoRoomAt(y, i, m) {
      if i < |y| - 1 {
        assert NoRoomAt(ls, i, m);
        assert y[i - 1] == ls[i - 1] && y[i] == ls[i];
      }
    }
  }

  lemma AllGoodReplaceLast(ls: seq<string>, a: string, b: string, m: int)
    requires AllGood(ls + [a], m) && GoodLine(b, m)
    ensures AllGood(ls + [b], m)
  {
    assert forall i :: 0 <= i < |ls| ==> (ls + [b])[i] == (ls + [a])[i];
  }

  /** The first word starts the first line. */
  lemma {:induction false} StepFirst(w: string, m: int)
    requires IsWord(w)
    ensures WrapStep(WrapState([], ""), w, m) == WrapState([], w)
    ensures WrapOn(WrapState([], w), [w], m)
  {
    TrimSpaceWord(w);
    SplitNoSep(w, ' ');
    assert [] + [w] == [w];
    WordsOfSnoc([], w);
  }

  /** The current line followed by a space and the next word. */
  lemma JoinedLine(cur: string, w: string)
    requires cur != [] && Trimmed(cur) && OnlyPlainSpaces(cur) && IsWord(w)
    ensures Trim(cur + " " + w) == cur + " " + w
    ensures Trimmed(cur + " " + w) && OnlyPlainSpaces(cur + " " + w)
    ensures Split(cur + " " + w, ' ') == Split(cur, ' ') + [w]
    ensures FirstWord(cur + " " + w) == FirstWord(cur)
  {
    var joined := cur + " " + w;
    assert Trimmed(joined);
    TrimFixesTrimmed(joined);
    SplitNoSep(w, ' ');
    SplitAppend(cur, ' ', w);
  }

  lemma LastGood(ls: seq<string>, l: string, m: int)
    requires AllGood(ls + [l], m)
    ensures GoodLine(l, m)
  {
    assert (ls + [l])[|ls|] == l;
  }

  /** A later word that fits is added to the current line. */
  lemma {:induction false} StepJoin(st: WrapState, done: seq<string>, w: string, m: int)
    requires WrapOn(st, done, m) && IsWord(w)
    requires |st.cur + " " + w| <= m
    ensures WrapOn(WrapStep(st, w, m), done + [w], m)
  {
    LastGood(st.lines, st.cur, m);
    var joined := st.cur + " " + w;
    JoinedLine(st.cur, w);
    assert WrapStep(st, w, m) == WrapState(st.lines, joined);
    WordsOfSnoc(st.lines, st.cur);
    WordsOfSnoc(st.lines, joined);
    AllGoodReplaceLast(st.lines, st.cur, joined, m);
    GreedyReplaceLast(st.lines, st.cur, joined, m);
  }

  /** A later word that does not fit closes the current line and starts
      the next. */
  lemma {:induction false} StepBreak(st: WrapState, done: seq<string>, w: string, m: int)
    requires WrapOn(st, done, m) && IsWord(w)
    requires |st.cur + " " + w| > m
    ensures WrapOn(WrapStep(st, w, m), done + [w], m)
  {
    LastGood(st.lines, st.cur, m);
    JoinedLine(st.cur, w);
    SplitNoSep(w, ' ');
    var ls := st.lines + [st.cur];
    assert WrapStep(st, w, m) == WrapState(ls, w);
    WordsOfSnoc(ls, w);
    assert AllGood(ls + [w], m) by {
      assert forall i :: 0 <= i < |ls| ==> (ls + [w])[i] == ls[i];
    }
    GreedySnoc(ls, w, m);
  }

  /** One loop pass keeps the invariant. */
  lemma {:induction false} WrapStepInv(st: WrapState, done: seq<string>, w: string, m: int)
    requires WrapInv(st, done, m) && IsWord(w)
    ensures WrapInv(WrapStep(st, w, m), done + [w], m)
  {
    if done == [] {
      StepFirst(w, m);
      assert done + [w] == [w];
    } else if |st.cur + " " + w| <= m {
      StepJoin(st, done, w, m);
    } else {
      StepBreak(st, done, w, m);
    }
  }

  lemma AppendHead<T>(a: seq<T>, b: seq<T>)
    requires b != []
    ensures a + [b[0]] + b[1..] == a + b
  {
  }

  lemma AllWordsTail(ws: seq<string>)
    requires AllWords(ws) && ws != []
    ensures IsWord(ws[0]) && AllWords(ws[1..])
  {
  }

  lemma {:induction false} WrapLoopInv(st: WrapState, done: seq<string>, ws: seq<string>, m: int)
    requires WrapInv(st, done, m) && AllWords(ws)
    ensures WrapInv(WrapLoop(st, ws, m), done + ws, m)
    decreases |ws|
  {
    if ws == [] {
      assert done + ws == done;
    } else {
      AllWordsTail(ws);
      WrapStepInv(st, done, ws[0], m);
      WrapLoopInv(WrapStep(st, ws[0], m), done + [ws[0]], ws[1..], m);
      AppendHead(done, ws);
    }
  }

  /** `wrapText`'s lines, for a list of words: none empty, each within the
      width unless it is a single over-long word, greedily filled, and
      holding exactly the given words in order. */
  lemma WrapLinesSpec(ws: seq<string>, m: int)
    requires AllWords(ws)
    ensures ws == [] <==> WrapLines(ws, m) == []
    ensures WordsOf(WrapLines(ws, m)) == ws
    ensures AllGood(WrapLines(ws, m), m)
    ensures Greedy(WrapLines(ws, m), m)
  {
    WrapLoopInv(WrapState([], ""), [], ws, m);
    assert [] + ws == ws;
  }

  /** A blank text gives the single empty word, which yields no line. */
  lemma WrapLinesBlank(m: int)
    ensures WrapLines([""], m) == []
  {
    var st := WrapState([], "");
    assert "" + " " + "" == " ";
    assert IsSpace(" "[0]) && " "[1..] == "";
    assert TrimStart(" ") == TrimStart("") == "";
    assert TrimEnd("") == "";
    assert Trim("" + " " + "") == "";
    assert WrapStep(st, "", m) == st;
    assert [""][1..] == [];
    assert WrapLoop(st, [""], m) == WrapLoop(st, [], m) == st;
  }

  /** The full contract of `wrapText`: empty for a missing, empty or blank
      text; otherwise lines, joined by backslash-`n`, that are non-empty,
      within the width unless a single over-long word, greedily filled and
      holding exactly the normalised input words in order. */
  lemma WrapTextSpec(text: string, m: int)
    ensures WrapText(None, m) == "" && WrapText(Some(""), m) == ""
    ensures NonSpace(text) == [] ==> WrapText(Some(text), m) == ""
    ensures var lines := WrapLines(JsWords(text), m);
      && WrapText(Some(text), m) == Join(lines, LineBreak)
      && (NonSpace(text) != [] ==> lines != [] && WordsOf(lines) == JsWords(text))
      && AllGood(lines, m)
      && Greedy(lines, m)
  {
    JsWordsShape(text);
    if NonSpace(text) == [] {
      WrapLinesBlank(m);
    } else {
      WrapLinesSpec(JsWords(text), m);
    }
  }

  lemma {:induction false} JoinAvoids(parts: seq<string>, sep: string, c: char)
    requires c !in sep
    requires forall i :: 0 <= i < |parts| ==> c !in parts[i]
    ensures c !in Join(parts, sep)
  {
    if |parts| > 1 {
      JoinAvoids(parts[..|parts| - 1], sep, c);
    }
  }

  lemma {:induction false} JoinPlainSpaces(parts: seq<string>, sep: string)
    requires OnlyPlainSpaces(sep)
    requires forall i :: 0 <= i < |parts| ==> OnlyPlainSpaces(parts[i])
    ensures OnlyPlainSpaces(Join(parts, sep))
  {
    if |parts| > 1 {
      JoinPlainSpaces(parts[..|parts| - 1], sep);
    }
  }

  lemma WrapLinesPlain(text: string, m: int)
    ensures forall i :: 0 <= i < |WrapLines(JsWords(text), m)| ==> OnlyPlainSpaces(WrapLines(JsWords(text), m)[i])
  {
    WrapTextSpec(text, m);
  }

  lemma PlainHasNoNewline(s: string)
    requires OnlyPlainSpaces(s)
    ensures '\n' !in s
  {
    if '\n' in s {
      var i :| 0 <= i < |s| && s[i] == '\n';
      assert IsSpace(s[i]);
    }
  }

  lemma WrapTextPlain(text: Option<string>, m: int)
    ensures OnlyPlainSpaces(WrapText(text, m))
  {
    if text.Some? && text.value != "" {
      var lines := WrapLines(JsWords(text.value), m);
      WrapLinesPlain(text.value, m);
      LineBreakPlain();
      JoinPlainSpaces(lines, LineBreak);
    }
  }

  lemma LineBreakPlain()
    ensures OnlyPlainSpaces(LineBreak)
  {
    assert LineBreak == ['\\', 'n'];
  }

  /** The wrapped text holds no newline character and no white space other
      than plain spaces: line breaks are only the escaped `\n` pairs. */
  lemma WrapTextNoNewline(text: Option<string>, m: int)
    ensures OnlyPlainSpaces(WrapText(text, m))
    ensures '\n' !in WrapText(text, m)
  {
    WrapTextPlain(text, m);
    PlainHasNoNewline(WrapText(text, m));
  }

  // ---------------------------------------------------------------------------
  // Escaping (`sanitizeForDrawtext`)
  // ---------------------------------------------------------------------------

  /** The five characters the escaper protects. */
  predicate IsSpecial(c: char) {
    c == ':' || c == '\'' || c == '[' || c == ']' || c == '"'
  }

  /** `s.replace(/c/g, "\\c")`: a backslash before every `c`. */
  function EscapeEvery(s: string, c: char): string {
    if s == [] then [] else (if s[0] == c then ['\\', c] else [s[0]]) + EscapeEvery(s[1..], c)
  }

  /** The five replacements, in the source's order. */
  function EscapeChain(s: string): string {
    EscapeEvery(EscapeEvery(EscapeEvery(EscapeEvery(EscapeEvery(s, ':'), '\''), '['), ']'), '"')
  }

  /** `sanitizeForDrawtext(text)`; `None` is a null or undefined argument. */
  function Sanitize(text: Option<string>): string {
    EscapeChain(if text.Some? then text.value else "")
  }

  /** Independent reference: each special character individually preceded
      by a backslash, every other character kept as it is. */
  function EscapeSpecials(s: string): string {
    if s == [] then [] else (if IsSpecial(s[0]) then ['\\', s[0]] else [s[0]]) + EscapeSpecials(s[1..])
  }

  /** Removes the backslash in front of each special character. */
  function Unescape(s: string): string
    decreases |s|
  {
    if |s| >= 2 && s[0] == '\\' && IsSpecial(s[1]) then [s[1]] + Unescape(s[2..])
    else if s == [] then []
    else [s[0]] + Unescape(s[1..])
  }

  /** The number of special characters in `s`. */
  function CountSpecial(s: string): nat {
    if s == [] then 0 else (if IsSpecial(s[0]) then 1 else 0) + CountSpecial(s[1..])
  }

  lemma {:induction false} EscapeEveryAppend(a: string, b: string, c: char)
    ensures EscapeEvery(a + b, c) == EscapeEvery(a, c) + EscapeEvery(b, c)
  {
    if a == [] {
      assert a + b == b;
    } else {
      assert (a + b)[1..] == a[1..] + b;
      EscapeEveryAppend(a[1..], b, c);
    }
  }

  lemma EscapeChainAppend(a: string, b: string)
    ensures EscapeChain(a + b) == EscapeChain(a) + EscapeChain(b)
  {
    var a1, b1 := EscapeEvery(a, ':'), EscapeEvery(b, ':');
    EscapeEveryAppend(a, b, ':');
    var a2, b2 := EscapeEvery(a1, '\''), EscapeEvery(b1, '\'');
    EscapeEveryAppend(a1, b1, '\'');
    var a3, b3 := EscapeEvery(a2, '['), EscapeEvery(b2, '[');
    EscapeEveryAppend(a2, b2, '[');
    var a4, b4 := EscapeEvery(a3, ']'), EscapeEvery(b3, ']');
    EscapeEveryAppend(a3, b3, ']');
    EscapeEveryAppend(a4, b4, '"');
  }

  lemma EscapeEveryOther(s: string, c: char)
    requires c !in s
    ensures EscapeEvery(s, c) == s
  {
  }

  lemma EscapeChainChar(x: char)
    ensures EscapeChain([x]) == if IsSpecial(x) then ['\\', x] else [x]
  {
    var e := ['\\', x];
    if x == ':' {
      assert EscapeEvery([x], ':') == e;
    } else {
      EscapeEveryOther([x], ':');
    }
    var s1 := EscapeEvery([x], ':');
    if x == '\'' {
      assert EscapeEvery([x], '\'') == e;
    } else {
      EscapeEveryOther(s1, '\'');
    }
    var s2 := EscapeEvery(s1, '\'');
    if x == '[' {
      assert EscapeEvery([x], '[') == e;
    } else {
      EscapeEveryOther(s2, '[');
    }
    var s3 := EscapeEvery(s2, '[');
    if x == ']' {
      assert EscapeEvery([x], ']') == e;
    } else {
      EscapeEveryOther(s3, ']');
    }
    var s4 := EscapeEvery(s3, ']');
    if x == '"' {
      assert EscapeEvery([x], '"') == e;
    } else {
      EscapeEveryOther(s4, '"');
    }
  }

  /** The five chained replacements act character by character: each of
      `:` `'` `[` `]` `"` becomes backslash plus itself, all others stay. */
  lemma {:induction false} SanitizeIsEscapeSpecials(s: string)
    ensures Sanitize(Some(s)) == EscapeSpecials(s)
  {
    if s != [] {
      assert s == [s[0]] + s[1..];
      EscapeChainAppend([s[0]], s[1..]);
      EscapeChainChar(s[0]);
      SanitizeIsEscapeSpecials(s[1..]);
    }
  }

  lemma {:induction false} EscapeSpecialsLength(s: string)
    ensures |EscapeSpecials(s)| == |s| + CountSpecial(s)
  {
    if s != [] {
      EscapeSpecialsLength(s[1..]);
    }
  }

  lemma EscapeSpecialsHead(s: string)
    ensures EscapeSpecials(s) == [] || !IsSpecial(EscapeSpecials(s)[0])
  {
  }

  lemma {:induction false} UnescapeEscapeSpecials(s: string)
    ensures Unescape(EscapeSpecials(s)) == s
  {
    if s != [] {
      var rest := EscapeSpecials(s[1..]);
      UnescapeEscapeSpecials(s[1..]);
      if IsSpecial(s[0]) {
        assert EscapeSpecials(s) == ['\\', s[0]] + rest;
        assert (['\\', s[0]] + rest)[2..] == rest;
      } else {
        assert EscapeSpecials(s) == [s[0]] + rest;
        assert ([s[0]] + rest)[1..] == rest;
        EscapeSpecialsHead(s[1..]);
      }
    }
  }

  /** Every special character of the escaped text has a backslash just
      before it. */
  lemma {:induction false} EscapeSpecialsGuarded(s: string)
    ensures var r := EscapeSpecials(s);
      forall i :: 0 <= i < |r| && IsSpecial(r[i]) ==> i > 0 && r[i - 1] == '\\'
  {
    if s != [] {
      EscapeSpecialsGuarded(s[1..]);
      var rest := EscapeSpecials(s[1..]);
      var r := EscapeSpecials(s);
      var h := if IsSpecial(s[0]) then ['\\', s[0]] else [s[0]];
      assert r == h + rest;
      EscapeSpecialsHead(s[1..]);
      forall i | 0 <= i < |r| && IsSpecial(r[i]) ensures i > 0 && r[i - 1] == '\\' {
        if i >= |h| {
          assert r[i] == rest[i - |h|];
          if i - |h| > 0 {
            assert r[i - 1] == rest[i - |h| - 1];
          }
        }
      }
    }
  }

  /** The contract of `sanitizeForDrawtext`: a missing text gives the empty
      string; otherwise the output is the input with a backslash inserted
      before each special character, so it is longer by the number of
      those characters, never shows one without a backslash in front, and
      removing those backslashes gives the input back. */
  lemma SanitizeSpec(s: string)
    ensures Sanitize(None) == ""
    ensures var r := Sanitize(Some(s));
      && |r| == |s| + CountSpecial(s)
      && Unescape(r) == s
      && forall i :: 0 <= i < |r| && IsSpecial(r[i]) ==> i > 0 && r[i - 1] == '\\'
  {
    SanitizeIsEscapeSpecials(s);
    EscapeSpecialsLength(s);
    UnescapeEscapeSpecials(s);
    EscapeSpecialsGuarded(s);
  }

  /** Backslashes are not escaped, so sanitising twice is not the same as
      sanitising once: `:` becomes `\:` and then `\\:`. */
  lemma SanitizeNotIdempotent()
    ensures Sanitize(Some(Sanitize(Some(":")))) != Sanitize(Some(":"))
  {
    SanitizeIsEscapeSpecials(":");
    SanitizeIsEscapeSpecials("\\:");
    assert Sanitize(Some(":")) == "\\:";
    assert |Sanitize(Some("\\:"))| == 3 by {
      EscapeSpecialsLength("\\:");
    }
  }
}

=== FILE: videograph.dfy ===
/** The filter graph `generateVideos` (controllers/videoController.js)
    builds inline for each video: the inputs, the statements and the
    stream maps. The ffmpeg process that runs them is not modelled. */
module VideoGraph {
  import opened Basics
  import opened Strings
  import opened Text
  import opened Graph
  import opened Params

  /** What one video's graph is built from: the request's values, the
      image and audio paths, the script the model wrote, the font file
      found for the requested name and whether the server runs on
      Windows. `duration` and `fontSize` are NaN (`None`) when their
      fields do not parse. */
  datatype Job = Job(
    images: seq<string>, audio: Option<string>,
    size: string, width: int, height: int,
    duration: Option<int>, kenburns: bool, script: string,
    fontFile: Option<string>, windows: bool,
    fontSize: Option<int>, position: Field)

  /** The job for a request: the size text from the preset and the frame
      size read back from it. */
  function JobOf(r: Request, images: seq<string>, audio: Option<string>, script: string,
                 fontFile: Option<string>, windows: bool): Job
  {
    var wh := Dimensions(r);
    Job(images, audio, SizeFromPreset(r.preset, r.customW, r.customH), wh.0, wh.1,
        r.duration, r.kenburns, script, fontFile, windows, r.fontSize, r.position)
  }

  /** The size text of a job reads back as its frame size, so the colour
      source and the scaled images agree on it. */
  lemma JobSize(r: Request, images: seq<string>, audio: Option<string>, script: string,
                fontFile: Option<string>, windows: bool)
    ensures var j := JobOf(r, images, audio, script, fontFile, windows);
      ParseSize(j.size) == (Some(j.width), Some(j.height))
  {
    SizeFromPresetSpec(r.preset, r.customW, r.customH);
  }

  /** The controller reads `fade` but never uses it: requests that differ
      only in it build the same job. This holds by construction, since a
      `Job` has no place for the flag. */
  lemma FadeIgnored(r: Request, images: seq<string>, audio: Option<string>, script: string,
                    fontFile: Option<string>, windows: bool)
    ensures JobOf(r.(fade := true), images, audio, script, fontFile, windows)
         == JobOf(r.(fade := false), images, audio, script, fontFile, windows)
  {
  }

  // ---------------------------------------------------------------------------
  // Inputs
  // ---------------------------------------------------------------------------

  predicate HasAudio(j: Job) {
    j.audio.Some? && j.audio.value != ""
  }

  /** A black lavfi colour source lasting the duration when there are no
      images, otherwise each image looped. */
  function VideoInputs(j: Job): (r: seq<Input>)
    ensures |r| == Max(1, |j.images|)
  {
    if |j.images| == 0 then
      [Input("color=size=" + j.size + ":color=000000", ["-f", "lavfi", "-t", NumberText(j.duration)])]
    else
      seq(|j.images|, i requires 0 <= i < |j.images| => Input(j.images[i], ["-loop", "1"]))
  }

  function AudioInput(j: Job): Input {
    if HasAudio(j) then Input(j.audio.value, []) else Input(SilentAudio, ["-f", "lavfi"])
  }

  function Inputs(j: Job): seq<Input> {
    VideoInputs(j) + [AudioInput(j)]
  }

  /** The inputs are the video sources followed by one audio source, and
      the audio map index names that last input. */
  lemma InputsSpec(j: Job)
    ensures var ins := Inputs(j);
      && |ins| == Max(1, |j.images|) + 1
      && AudioIndex(|j.images|) == |ins| - 1
      && ins[AudioIndex(|j.images|)] == AudioInput(j)
      && (|j.images| == 0 ==> ins[0].source == "color=size=" + j.size + ":color=000000")
      && (forall i :: 0 <= i < |j.images| ==> ins[i] == Input(j.images[i], ["-loop", "1"]))
  {
  }

  // ---------------------------------------------------------------------------
  // Statements
  // ---------------------------------------------------------------------------

  /** `Math.max(2, Math.floor(duration / n))`: seconds per image; NaN
      stays NaN. */
  function PerSlide(duration: Option<int>, n: nat): Option<int>
    requires n > 0
  {
    if duration.None? then None else Some(Max(2, duration.value / n))
  }

  /** `Math.max(25, Math.floor(25 * perSlide))`: zoompan frames per image. */
  function Frames(duration: Option<int>, n: nat): Option<int>
    requires n > 0
  {
    var s := PerSlide(duration, n);
    if s.None? then None else Some(Max(25, 25 * s.value))
  }

  /** The zoompan lasts exactly the image's share at 25 frames a second,
      so the 25-frame floor never applies: it is at least 50 frames. */
  lemma FramesSpec(d: Option<int>, n: nat)
    requires n > 0
    ensures Frames(d, n).None? <==> d.None?
    ensures d.Some? ==> Frames(d, n).value == 25 * PerSlide(d, n).value >= 50
    ensures d.Some? ==>
      && PerSlide(d, n).value >= 2
      && (PerSlide(d, n).value == 2 || PerSlide(d, n).value * n <= d.value < (PerSlide(d, n).value + 1) * n)
  {
  }

  /** The filter chains the controller writes, with the values they print. */
  datatype Chain =
    | FitFrame(w: int, h: int, seconds: Option<int>)
    | SlowZoom(frames: Option<int>, w: int, h: int)
    | ConcatAll(n: nat)
    | DrawCaption(fontFile: string, text: string, fontSize: Option<int>, y: string, duration: Option<int>)

  function ShowChain(c: Chain): string {
    match c
    case FitFrame(w, h, s) =>
      "scale=w=" + IntToString(w) + ":h=" + IntToString(h) + ":force_original_aspect_ratio=decrease,"
      + "pad=" + IntToString(w) + ":" + IntToString(h) + ":(ow-iw)/2:(oh-ih)/2,setsar=1,format=yuv420p,trim=duration="
      + NumberText(s) + ",setpts=PTS-STARTPTS"
    case SlowZoom(f, w, h) =>
      "zoompan=z='if(lte(zoom,1.0),1.0, zoom+0.0005)':d=" + NumberText(f) + ":s=" + SizeText(w, h)
    case ConcatAll(n) => "concat=n=" + IntToString(n) + ":v=1:a=0"
    case DrawCaption(font, text, size, y, d) =>
      "drawtext=fontfile='" + font + "':text='" + text + "':fontcolor=white:fontsize=" + NumberText(size)
      + ":box=1:boxcolor=black@0.5:boxborderw=10:x=(w-text_w)/2:y=" + y
      + ":line_spacing=6:enable='between(t,0," + NumberText(d) + ")'"
  }

  /** Image i fitted into the frame and trimmed, to `[v{i}]`. */
  function SlideFilter(j: Job, i: nat): Filter<Chain>
    requires |j.images| > 0
  {
    Filter([InputVideo(i)], FitFrame(j.width, j.height, PerSlide(j.duration, |j.images|)), Slide(i))
  }

  /** Image i zooming in slowly, to `[kb{i}]`; it reads the raw input. */
  function ZoomFilter(j: Job, i: nat): Filter<Chain>
    requires |j.images| > 0
  {
    Filter([InputVideo(i)], SlowZoom(Frames(j.duration, |j.images|), j.width, j.height), Zoom(i))
  }

  function Slides(j: Job): nat -> Filter<Chain>
    requires |j.images| > 0
  {
    (i: nat) => SlideFilter(j, i)
  }

  function Zooms(j: Job): nat -> Filter<Chain>
    requires |j.images| > 0
  {
    (i: nat) => ZoomFilter(j, i)
  }

  /** The per-image statements; none without images. */
  function Stage(j: Job): seq<Filter<Chain>> {
    if |j.images| == 0 then [] else PerImage(|j.images|, j.kenburns, Slides(j), Zooms(j))
  }

  /** `videoStreams`: the colour source's own video without images. */
  function VideoStreams(j: Job): seq<Label> {
    if |j.images| == 0 then [InputVideo(0)] else Streams(|j.images|, j.kenburns)
  }

  /** The concatenation, present only for several streams. */
  function ConcatPart(j: Job): seq<Filter<Chain>> {
    var streams := VideoStreams(j);
    if |streams| == 1 then [] else [Filter(streams, ConcatAll(|streams|), Out)]
  }

  /** `finalVideoLabel`: the single stream, unless it is empty once its
      brackets are removed (then `[0:v]`), or `[vout]` after a concat. */
  function FinalLabel(j: Job): Label {
    var streams := VideoStreams(j);
    if |streams| == 1 then
      (if StripBrackets(ShowLabel(streams[0])) != "" then streams[0] else InputVideo(0))
    else Out
  }

  /** `position === "top"`, `"bottom"`, anything else. */
  function CaptionY(position: Field): string {
    if position == Text("top") then "(h*0.12)"
    else if position == Text("bottom") then "(h-text_h-64)"
    else "(h-text_h)/2"
  }

  /** The font found for the request, else the platform's default font. */
  function FontPath(fontFile: Option<string>, windows: bool): string {
    if fontFile.Some? && fontFile.value != "" then fontFile.value
    else if windows then "C:/Windows/Fonts/arial.ttf"
    else "/usr/share/fonts/truetype/dejavu/DejaVuSans.ttf"
  }

  /** The script wrapped to a twentieth of the frame width and escaped. */
  function CaptionText(script: string, width: int): string {
    Sanitize(Some(WrapText(Some(script), width / 20)))
  }

  /** The drawtext statement, to `[vfinal]`; it is always there, whatever
      the script. */
  function DrawFilter(j: Job): Filter<Chain> {
    Filter([FinalLabel(j)],
      DrawCaption(FontPath(j.fontFile, j.windows), CaptionText(j.script, j.width), j.fontSize,
                  CaptionY(j.position), j.duration),
      Final)
  }

  /** The statements, in the order they are pushed. */
  function Filters(j: Job): seq<Filter<Chain>> {
    Stage(j) + ConcatPart(j) + [DrawFilter(j)]
  }

  function FilterTexts(j: Job): seq<string> {
    ShowAll(Filters(j), ShowChain)
  }

  /** `-map [vfinal]` and the audio input's stream. */
  function Maps(j: Job): seq<string> {
    ["-map " + ShowLabel(Final), "-map " + IntToString(AudioIndex(|j.images|)) + ":a"]
  }

  // ---------------------------------------------------------------------------
  // Properties of the graph
  // ---------------------------------------------------------------------------

  lemma ControllerShape(j: Job)
    requires |j.images| > 0
    ensures StageShape(Slides(j), Zooms(j), |j.images|)
  {
  }

  /** One stream per image (its zoompan output with Ken Burns), or the
      colour source's video when there are no images. */
  lemma VideoStreamsSpec(j: Job)
    ensures |VideoStreams(j)| == Max(1, |j.images|)
    ensures |j.images| == 0 ==> VideoStreams(j) == [InputVideo(0)]
    ensures forall i :: 0 <= i < |j.images| ==> VideoStreams(j)[i] == (if j.kenburns then Zoom(i) else Slide(i))
  {
  }

  /** No stream label is empty once its brackets are removed, so the
      final label is the single stream itself, or `[vout]`. */
  lemma FinalLabelSpec(j: Job)
    ensures FinalLabel(j) == if |VideoStreams(j)| == 1 then VideoStreams(j)[0] else Out
  {
    if |VideoStreams(j)| == 1 {
      StripLabel(VideoStreams(j)[0]);
    }
  }

  lemma StageLength(j: Job)
    ensures |Stage(j)| == Stride(j.kenburns) * |j.images|
  {
    if |j.images| > 0 {
      PerImageAt(|j.images|, j.kenburns, Slides(j), Zooms(j));
    }
  }

  /** Without images the graph is the one drawtext statement over the
      colour source's video `[0:v]`: no concatenation. */
  lemma NoImages(j: Job)
    requires |j.images| == 0
    ensures Filters(j) == [DrawFilter(j)]
    ensures DrawFilter(j).ins == [InputVideo(0)] && DrawFilter(j).out == Final
  {
    FinalLabelSpec(j);
  }

  /** With images, image i has its scale, pad and trim statement, trimmed
      to `PerSlide`, and with Ken Burns its zoompan statement, both
      reading input i. */
  lemma ImageStatements(j: Job, i: nat)
    requires i < |j.images|
    ensures var fs := Filters(j);
      && Stride(j.kenburns) * i < |fs| && fs[Stride(j.kenburns) * i] == SlideFilter(j, i)
      && (j.kenburns ==> 2 * i + 1 < |fs| && fs[2 * i + 1] == ZoomFilter(j, i))
  {
    PerImageAt(|j.images|, j.kenburns, Slides(j), Zooms(j));
    PositionsOf(i, j.kenburns);
    var st := Stage(j);
    assert Filters(j)[Stride(j.kenburns) * i] == st[Stride(j.kenburns) * i];
    if j.kenburns {
      assert Filters(j)[2 * i + 1] == st[2 * i + 1];
    }
  }

  /** After the stage: exactly one concatenation of all the streams, in
      order, to `[vout]` when there are several, then the drawtext
      statement over the final label to `[vfinal]`, drawing the caption
      text of `CaptionSpec` in the job's font, size and duration, placed
      as the position asks. */
  lemma Tail(j: Job)
    ensures var fs := Filters(j);
      var m := |Stage(j)|;
      var streams := VideoStreams(j);
      && |fs| == m + (if |streams| > 1 then 2 else 1)
      && (|streams| > 1 ==> fs[m] == Filter(streams, ConcatAll(|streams|), Out))
      && fs[|fs| - 1].ins == [FinalLabel(j)] && fs[|fs| - 1].out == Final
      && fs[|fs| - 1].chain == DrawCaption(FontPath(j.fontFile, j.windows), CaptionText(j.script, j.width),
                                           j.fontSize, CaptionY(j.position), j.duration)
      && (j.position == Text("top") ==> fs[|fs| - 1].chain.y == "(h*0.12)")
      && (j.position == Text("bottom") ==> fs[|fs| - 1].chain.y == "(h-text_h-64)")
      && (j.position != Text("top") && j.position != Text("bottom") ==> fs[|fs| - 1].chain.y == "(h-text_h)/2")
  {
  }

  /** Every statement of the stage reads an image's video and writes its
      `[v{i}]` or `[kb{i}]`. */
  lemma StageOut(j: Job, k: nat)
    requires k < |Stage(j)|
    ensures var f := Stage(j)[k];
      && |f.ins| == 1 && f.ins[0].InputVideo? && f.ins[0].index < |j.images|
      && (f.out.Slide? || f.out.Zoom?)
      && (f.out.Zoom? ==> j.kenburns)
      && !f.chain.ConcatAll?
  {
    ControllerShape(j);
    PerImageOut(|j.images|, j.kenburns, Slides(j), Zooms(j), k);
    PerImageAt(|j.images|, j.kenburns, Slides(j), Zooms(j));
  }

  /** What statement k of the graph reads and writes. */
  lemma FilterAt(j: Job, k: nat)
    requires k < |Filters(j)|
    ensures var f := Filters(j)[k];
      var m := |Stage(j)|;
      var streams := VideoStreams(j);
      && (k < m ==> f == Stage(j)[k])
      && (k < m ==>
            && |f.ins| == 1 && f.ins[0].InputVideo? && f.ins[0].index < |j.images|
            && (f.out.Slide? || f.out.Zoom?) && !f.chain.ConcatAll?)
      && (k == m && |streams| > 1 ==> f.ins == streams && f.out == Out && f.chain == ConcatAll(|streams|))
      && (k == |Filters(j)| - 1 ==> f.ins == [FinalLabel(j)] && f.out == Final && !f.chain.ConcatAll?)
      && (m <= k < |Filters(j)| - 1 ==> k == m && |streams| > 1)
  {
    Tail(j);
    if k < |Stage(j)| {
      StageOut(j, k);
    }
  }

  /** Each stream the concatenation or the drawtext reads is the colour
      source's video or is written by the stage. */
  lemma StreamProduced(j: Job, l: Label)
    requires l in VideoStreams(j)
    ensures (l.InputVideo? && l.index < AudioIndex(|j.images|)) || ProducedBefore(Filters(j), |Stage(j)|, l)
  {
    var fs := Filters(j);
    StageLength(j);
    if |j.images| > 0 {
      var i :| 0 <= i < |VideoStreams(j)| && VideoStreams(j)[i] == l;
      ControllerShape(j);
      PerImageProduces(|j.images|, j.kenburns, Slides(j), Zooms(j), i);
      var p := if j.kenburns then 2 * i + 1 else i;
      assert fs[p] == Stage(j)[p];
    }
  }

  /** The graph is well formed: every label read is an image's (or the
      colour source's) video or was written by an earlier statement, so
      the audio input is never read as video. */
  lemma ControllerWired(j: Job)
    ensures Wired(Filters(j), AudioIndex(|j.images|))
  {
    var fs := Filters(j);
    var m := |Stage(j)|;
    var streams := VideoStreams(j);
    Tail(j);
    FinalLabelSpec(j);
    forall k, l | 0 <= k < |fs| && l in fs[k].ins
      ensures (l.InputVideo? && l.index < AudioIndex(|j.images|)) || ProducedBefore(fs, k, l)
    {
      FilterAt(j, k);
      if k >= m {
        if |streams| > 1 && k == |fs| - 1 {
          assert fs[m].out == l;
        } else {
          StreamProduced(j, l);
        }
      }
    }
  }

  /** No label is written twice. */
  lemma ControllerSingle(j: Job)
    ensures SingleAssignment(Filters(j))
  {
    var fs := Filters(j);
    if |j.images| > 0 {
      ControllerShape(j);
      PerImageSingle(|j.images|, j.kenburns, Slides(j), Zooms(j));
    }
    forall a, b | 0 <= a < b < |fs| ensures fs[a].out != fs[b].out {
      FilterAt(j, a);
      FilterAt(j, b);
    }
  }

  /** There is a concatenation exactly when there are at least two
      images, and then exactly one, joining one stream per image. */
  lemma ConcatExactlyOnce(j: Job)
    ensures forall k :: 0 <= k < |Filters(j)| ==>
      (Filters(j)[k].chain.ConcatAll? <==> |j.images| > 1 && k == |Stage(j)|)
    ensures |j.images| > 1 ==> Filters(j)[|Stage(j)|].chain == ConcatAll(|j.images|)
  {
    VideoStreamsSpec(j);
    forall k | 0 <= k < |Filters(j)|
      ensures Filters(j)[k].chain.ConcatAll? <==> |j.images| > 1 && k == |Stage(j)|
    {
      FilterAt(j, k);
    }
    Tail(j);
  }

  /** With Ken Burns the scaled and trimmed `[v{i}]` streams are written
      but nothing reads them: zoompan works on the raw inputs. */
  lemma KenBurnsSkipsSlides(j: Job, i: nat)
    requires j.kenburns && i < |j.images|
    ensures !Consumed(Filters(j), Slide(i))
  {
    var fs := Filters(j);
    VideoStreamsSpec(j);
    FinalLabelSpec(j);
    forall k | 0 <= k < |fs| ensures Slide(i) !in fs[k].ins {
      FilterAt(j, k);
    }
  }

  /** `[vfinal]` is written by the last statement and read by none; the
      first map sends it to the file and the second takes the audio of
      the last input. */
  lemma FinalIsSink(j: Job)
    ensures Filters(j)[|Filters(j)| - 1].out == Final
    ensures !Consumed(Filters(j), Final)
    ensures Maps(j)[0] == "-map " + ShowLabel(Final)
    ensures Maps(j)[1] == "-map " + IntToString(|Inputs(j)| - 1) + ":a"
    ensures Inputs(j)[|Inputs(j)| - 1] == AudioInput(j)
  {
    AudioMapped(j);
    var fs := Filters(j);
    VideoStreamsSpec(j);
    FinalLabelSpec(j);
    FilterAt(j, |fs| - 1);
    forall k | 0 <= k < |fs| ensures Final !in fs[k].ins {
      FilterAt(j, k);
    }
  }

  lemma AudioMapped(j: Job)
    ensures Maps(j)[1] == "-map " + IntToString(|Inputs(j)| - 1) + ":a"
    ensures Inputs(j)[|Inputs(j)| - 1] == AudioInput(j)
  {
    InputsSpec(j);
  }

  /** The caption is the script wrapped to a twentieth of the width with
      the drawtext special characters escaped: undoing the escapes gives
      the wrapped script, which holds no newline character. */
  lemma CaptionSpec(script: string, width: int)
    ensures Unescape(CaptionText(script, width)) == WrapText(Some(script), width / 20)
    ensures '\n' !in Unescape(CaptionText(script, width))
  {
    var wrapped := WrapText(Some(script), width / 20);
    SanitizeSpec(wrapped);
    WrapTextNoNewline(Some(script), width / 20);
  }
}
